=== FILE: README.md ===
# Himalayan BJJ checkout and navigation, modelled in Dafny

This project models the purchase flow and the navigation logic of the Himalayan BJJ web
site, and proves properties of the model.

The **backend** is an Express server (`server/server.js`). It covers:
- a CORS allowlist;
- a `/ping` readiness report;
- `POST /create-payment-intent`, which checks the amount, calls Stripe and returns the client secret or an error object;
- a final error middleware.

The **front end** is a set of React components:
- a simulated card checkout page with input formatters;
- a training-program page that requests a payment intent;
- a demo checkout button;
- the embedded Stripe payment form;
- the payment-success page;
- a program detail page and a product card that hand prices to the checkout button;
- the header's active-section tracking and link handling;
- an e-book sign-up popup.

One module per source file:

| module | file |
|---|---|
| `Server` | `server/server.js` |
| `Checkout` | `src/pages/Checkout.tsx` |
| `Header` | `src/components/layout/Header.tsx` |
| `TrainingProgramPage` | `src/pages/TrainingProgramPage.tsx` |
| `CheckoutButton` | `src/components/checkout/CheckoutButton.tsx` |
| `StripeCheckoutForm` | `src/components/payments/StripeCheckoutForm.tsx` |
| `EbookPopup` | `src/components/ui/EbookPopup.tsx` |
| `PaymentSuccessPage` | `src/pages/PaymentSuccessPage.tsx` |
| `ProgramDetail` | `src/pages/ProgramDetail.tsx` |
| `ProductCard` | `src/components/products/ProductCard.tsx` |

Three helper modules support them:
- `Wrappers` holds `Option`.
- `Text` holds character classes, the `\s` filter, `trim`, `substring`, and decimal rendering and parsing.
- `Js` holds JavaScript truthiness, the `a || b` default and a small JSON value type.

How the source is represented:
- **Components whose state changes through handlers** are classes. Their `useState` variables are fields, and their handlers are methods with `modifies` clauses.
- **The payment-success page**, whose state is only set by one effect, is a state value (`PageState`) and a step function (`AfterEffect`) from the previous state to the next.
- **Async handlers** are split at their `await`. For example, `BeginBuy`/`CompleteBuy` and `Submit`/`Complete` are such pairs. What the awaited call produced is a parameter of the second half.
- **Server routes** are functions of a `PaymentServer` object. Its `stripe` handle is fixed at start-up.
- **The provider call** is represented by a `ProviderOutcome` parameter. The handler's result records the exact parameters passed to Stripe, or `None` when no call is made.
- **Clocks, `Math.random()` and DOM lookups** are parameters.

Two behaviours of `server/server.js` are worth knowing:

- `POST /create-payment-intent` tests `amount` only for JavaScript truthiness. `0` and a missing amount get 400, and a negative amount is passed to Stripe (`Server.NegativeAmountReachesProvider`).
- `server/server.js` has no checkout-session endpoint. The checkout button's call to one is commented out, so it is not modelled.

## Model

| member | source | states |
|---|---|---|
| Server.CorsOrigin | server/server.js:12-33 | a request with no (or an empty) origin is allowed; otherwise it is allowed exactly when its origin is one of the seven listed, and a rejection carries the policy message |
| Server.CodeOrDefault | server/server.js:120 | the error code sent is never empty and is the thrown error's code whenever that is non-empty, `"500"` otherwise |
| Server.ErrorMiddleware | server/server.js:127-135 | every error reaching the last middleware becomes status 500 with the error's message (default "Internal server error") and its code (default "500"), and no type |
| Server.RejectedOriginResponse | server/server.js:22-33 | an origin outside the allowlist is rejected, and the client receives 500 with the CORS policy message and code "500" |
| Server.PaymentServer.constructor | server/server.js:48-60 | the Stripe handle exists exactly when the secret key is non-empty and the SDK constructor does not throw, and it is built from that key |
| Server.PaymentServer.Ping | server/server.js:62-76 | `/ping` never calls the provider, answers 200, and reports key availability, initialisation and `NODE_ENV` (default "not set") as they are |
| Server.PaymentServer.CreatePaymentIntent | server/server.js:78-124 | the provider is called exactly when the amount is truthy and Stripe is initialised, with the amount, currency "inr", automatic methods on and the program id; a falsy amount is the only 400; missing Stripe gives 500 `stripe_not_initialized`; 200 exactly when the intent was created, with the client secret as the whole body; a provider error passes message and type through with the code defaulted to "500" |
| Server.PingInitializedImpliesKey | server/server.js:49-68 | a ping that reports an initialised client also reports the key as available |
| Server.NegativeAmountReachesProvider | server/server.js:83-103 | on an initialised server a negative numeric amount is passed on to the provider |
| Server.ProviderIrrelevantWithoutCall | server/server.js:83-94 | when the handler answers before calling Stripe, its answer does not depend on what Stripe would have done |
| Js.Truthy | server/server.js:83 | the falsy values are exactly `undefined`, `null`, `false`, `0` and the empty string |
| Js.Or | server/server.js:120 | `a \|\| d` is `a` when `a` is a non-empty string, and `d` when it is missing or empty |
| Checkout.CardNumber | src/pages/Checkout.tsx:44-47 | the formatted card number is at most 19 characters |
| Checkout.GroupFours | src/pages/Checkout.tsx:46 | grouping never shortens its input and is empty exactly for empty input |
| Checkout.GroupFoursKeepsContent | src/pages/Checkout.tsx:46 | the four-digit grouping inserts only spaces: the non-whitespace content is unchanged |
| Checkout.CardNumberContentIsPrefix | src/pages/Checkout.tsx:46-47 | with spaces removed, the formatted card number is a prefix of the input with whitespace removed |
| Checkout.CardNumberDependsOnContent | src/pages/Checkout.tsx:46-47 | whitespace typed into the field has no effect on the formatted value |
| Checkout.GroupedContent | src/pages/Checkout.tsx:46 | removing the separators from digits grouped in fours gives back the digits |
| Checkout.TrimGroupedDigits | src/pages/Checkout.tsx:46 | for an all-digit input, grouping then trimming gives groups of four separated by single spaces with no trailing space |
| Checkout.CardNumberOfDigits | src/pages/Checkout.tsx:46-47 | for an all-digit input the field shows the first 16 digits in groups of four |
| Checkout.CardNumberSixteenDigits | src/pages/Checkout.tsx:46-47 | sixteen digits are shown as `dddd dddd dddd dddd` |
| Checkout.CardNumberOfGrouped | src/pages/Checkout.tsx:46-47 | a value already shown as at most sixteen digits in groups of four is left unchanged by the formatter |
| Checkout.CardNumberIdempotentOnDigits | src/pages/Checkout.tsx:46-47 | for digit input, formatting the formatted value again changes nothing |
| Checkout.ExpiryDate | src/pages/Checkout.tsx:48-58 | the formatted expiry date is at most five characters |
| Checkout.ExpiryDateShape | src/pages/Checkout.tsx:48-58 | the expiry keeps exactly the first (at most four) digits of the input; at most two digits are returned unchanged; every character is a digit except a `/` at the third position, which is there exactly when more than two digits were typed |
| Checkout.ExpiryDateIdempotent | src/pages/Checkout.tsx:48-58 | formatting an already formatted expiry date changes nothing |
| Checkout.Cvv | src/pages/Checkout.tsx:59-62 | the CVV is the first at most three digits of the input: all digits, a prefix of the input's digits, and all of them when there are fewer than three |
| Checkout.CvvIdempotent | src/pages/Checkout.tsx:59-62 | formatting an already formatted CVV changes nothing |
| Checkout.ProgramName | src/pages/Checkout.tsx:29-39 | the fallback name is "BJJ Program" exactly for ids outside the table |
| Checkout.ProgramNameAliases | src/pages/Checkout.tsx:29-39 | two ids get the same name exactly when they are equal, aliases of one entry (`beginner`/`beginners-course`, `advanced`/`advanced-course`), or both unknown |
| Text.DigitPrefix | src/pages/Checkout.tsx:13 | `parseInt` reads the longest run of leading digits |
| Checkout.ParseInt | src/pages/Checkout.tsx:13 | blank input reads as `NaN`, and a negative result comes only from a leading minus sign |
| Checkout.QueryDefaults | src/pages/Checkout.tsx:11-13 | a missing program gives the empty id, a non-empty name is used as given, a missing name falls back to the table, and a missing price parses as 0 |
| Checkout.ParseIntOfNat | src/pages/Checkout.tsx:13 | a price written in decimal is read back as the same number |
| Text.DigitPrefixAll | src/pages/Checkout.tsx:13 | an all-digit price string is read in full |
| Checkout.ChangedValue | src/pages/Checkout.tsx:41-69 | the three card fields store their formatted value; a checkbox stores its checked state and any other input its raw value |
| Checkout.SessionIdRoundTrip | src/pages/Checkout.tsx:87 | the program id and the timestamp are read back from the session id by splitting at its last `_` |
| Checkout.CheckoutPage.constructor | src/pages/Checkout.tsx:5-22 | the page starts with the query-derived program, name and price, an empty form and no processing |
| Checkout.CheckoutPage.HandleChange | src/pages/Checkout.tsx:41-70 | a change event sets exactly the changed field, to its formatted value, and keeps every other field |
| Checkout.CheckoutPage.AgreedToTerms | src/pages/Checkout.tsx:75 | the terms count as agreed exactly when the checkbox field is present and holds neither `false` nor the empty string |
| Checkout.CheckoutPage.HandleSubmit | src/pages/Checkout.tsx:72-92 | without the terms ticked the user is alerted and nothing else happens; with them, processing starts and the page navigates to the success page with session id `<program>_<now>` |
| Checkout.CheckoutPage.PayDisabled | src/pages/Checkout.tsx:202 | the pay button is disabled exactly while processing |
| Header.TopEntry | src/components/layout/Header.tsx:41-49 | the chosen entry is intersecting and has the highest ratio of all intersecting entries, no later intersecting entry ties it, and there is none exactly when nothing intersects |
| Header.SectionFor | src/components/layout/Header.tsx:51-57 | the ids `top` and empty map to Home (the empty section), any other id to `#id` |
| Header.NextActiveSection | src/components/layout/Header.tsx:41-61 | with nothing intersecting the active section is kept; otherwise it becomes the top entry's section |
| Header.UniqueMaximumChosen | src/components/layout/Header.tsx:43-49 | an intersecting entry with strictly the highest ratio is the one chosen |
| Header.TieGoesToLater | src/components/layout/Header.tsx:47-49 | of two equally visible entries the later one is chosen |
| Header.ActiveOnHomePage | src/components/layout/Header.tsx:113-123 | on the home page, Home is highlighted exactly when no section is active, and a section link exactly when it is the active section |
| Header.IsNavItemActive | src/components/layout/Header.tsx:113-123 | a highlighted item is either the current page or an item on the home page; on the home page a highlighted item other than Home is the active section; an ordinary route is highlighted whenever it is the current page |
| Header.NavPathsDistinct | src/components/layout/Header.tsx:6-12 | the five nav items have distinct paths |
| Header.AtMostOneActive | src/components/layout/Header.tsx:113-123 | at most one nav item is highlighted |
| Header.NoneActiveOffHomePage | src/components/layout/Header.tsx:113-123 | off the home page no nav item is highlighted, since Home's second condition can never hold |
| Header.HeaderState.constructor | src/components/layout/Header.tsx:14-19 | the header starts unscrolled, with the menu closed and no active section |
| Header.HeaderState.HandleScroll | src/components/layout/Header.tsx:22-25 | the header is marked scrolled exactly when the page is scrolled past 50 pixels |
| Header.HeaderState.HandleIntersect | src/components/layout/Header.tsx:32-61 | section tracking runs only on the home page; a change of active section is to Home or to a hash path |
| Header.HeaderState.HandleSmoothScroll | src/components/layout/Header.tsx:87-106 | a hash link on the home page scrolls to and activates its section when the target exists; off the home page it redirects to `/` plus the hash; other links are followed normally and leave the section as it was |
| Header.HeaderState.ToggleMobileMenu | src/components/layout/Header.tsx:108-110 | the toggle flips the mobile menu |
| Header.ToggleTwice | src/components/layout/Header.tsx:108-110 | toggling twice restores the mobile menu |
| TrainingProgramPage.ProgramFor | src/pages/TrainingProgramPage.tsx:73 | a program is found exactly for the three table keys, and its id is the route parameter |
| TrainingProgramPage.TableEntry | src/pages/TrainingProgramPage.tsx:10-59 | the table has an entry exactly for its three keys, each carrying its own key as id and a positive price |
| TrainingProgramPage.TablePricesInPaise | src/pages/TrainingProgramPage.tsx:10-59 | every table price is positive and a whole number of rupees (10000, 20000 or 30000) expressed in paise |
| TrainingProgramPage.RequestFor | src/pages/TrainingProgramPage.tsx:85-88 | the request carries the program's price as amount and its id |
| TrainingProgramPage.TableRequestsHaveAmount | src/pages/TrainingProgramPage.tsx:82-88 | the request for a table program always passes the backend's amount check |
| TrainingProgramPage.FailureMessage | src/pages/TrainingProgramPage.tsx:93-105 | a server error's message ends with the response data, another error's message ends with that error's message, and no response gives the fixed message |
| TrainingProgramPage.FailureMessageClassifies | src/pages/TrainingProgramPage.tsx:93-105 | the three kinds of failure (server error, no response, other) give messages that can be told apart |
| TrainingProgramPage.FailureMessageReadBack | src/pages/TrainingProgramPage.tsx:93-105 | a server error's message is `Server error: ` followed by a digit run that reads back as the status, then ` - ` and the response data; another error's message is `Error: ` followed by exactly its message |
| TrainingProgramPage.ProgramPage.constructor | src/pages/TrainingProgramPage.tsx:61-73 | the page starts with the looked-up program, no checkout shown, not loading and no error |
| TrainingProgramPage.ProgramPage.BeginBuy | src/pages/TrainingProgramPage.tsx:75-88 | without a program nothing happens; otherwise loading starts, the error is cleared and the program's request is sent |
| TrainingProgramPage.ProgramPage.CompleteBuy | src/pages/TrainingProgramPage.tsx:84-108 | loading always ends; success shows the checkout with the returned client secret; failure keeps the checkout state and shows the message for the failure |
| TrainingProgramPage.ProgramPage.Render | src/pages/TrainingProgramPage.tsx:111-204 | "not found" exactly without a program; otherwise the program is shown, the error line shows the stored message exactly when it is non-empty, and the Buy caption reads "Loading..." while loading and "Buy Now" otherwise; the Buy button is hidden exactly once the checkout is shown and disabled exactly while loading; the payment form appears exactly with the checkout shown and a non-empty client secret |
| TrainingProgramPage.ProgramPage.ClickBuy | src/pages/TrainingProgramPage.tsx:185-193 | a click sends a request only through a shown, enabled Buy button, which then starts loading and clears the error; a click that sends nothing changes neither loading nor the error |
| TrainingProgramPage.DoubleClick | src/pages/TrainingProgramPage.tsx:185-193 | a second click before the first request settles sends nothing |
| CheckoutButton.DemoSuccessUrl | src/components/checkout/CheckoutButton.tsx:37 | the demo navigation target is the success page with `session_id=demo_` followed by decimal digits |
| CheckoutButton.DemoSuccessUrlRoundTrip | src/components/checkout/CheckoutButton.tsx:37 | the timestamp is read back from the demo session id |
| CheckoutButton.Button.constructor | src/components/checkout/CheckoutButton.tsx:13-21 | the button starts with its props, not loading and with no error |
| CheckoutButton.Button.StartCheckout | src/components/checkout/CheckoutButton.tsx:24-26 | a click starts loading and clears the error |
| CheckoutButton.Button.Disabled | src/components/checkout/CheckoutButton.tsx:78 | the button is disabled exactly while loading |
| CheckoutButton.Button.FinishCheckout | src/components/checkout/CheckoutButton.tsx:28-70 | loading always ends; the simulated checkout navigates to the demo URL for the current time regardless of the props, and a throw shows the fixed failure message instead |
| CheckoutButton.Button.Caption | src/components/checkout/CheckoutButton.tsx:78-90 | the caption reads "Processing..." exactly while the button is disabled |
| CheckoutButton.Button.ErrorShown | src/components/checkout/CheckoutButton.tsx:93-97 | the error line appears exactly when there is a non-empty error, and shows it |
| StripeCheckoutForm.ReturnUrl | src/components/payments/StripeCheckoutForm.tsx:27 | the return URL is the page's origin followed by `/payment-success` |
| StripeCheckoutForm.ConfirmErrorMessage | src/components/payments/StripeCheckoutForm.tsx:31-38 | there is a message exactly when confirmation did not redirect; a provider error's own non-empty message is shown unchanged, a provider error without one shows "An unexpected error occurred.", and a throw shows "Failed to process payment. Please try again." |
| StripeCheckoutForm.PaymentForm.constructor | src/components/payments/StripeCheckoutForm.tsx:9-10 | the form starts not processing and with no error |
| StripeCheckoutForm.PaymentForm.Submit | src/components/payments/StripeCheckoutForm.tsx:12-29 | without Stripe or Elements only the not-loaded message is set; otherwise processing starts, the error is cleared and confirmation is requested with the return URL |
| StripeCheckoutForm.PaymentForm.Complete | src/components/payments/StripeCheckoutForm.tsx:23-41 | processing always ends, and the error becomes the message for the outcome (kept as it was on redirect) |
| StripeCheckoutForm.PaymentForm.SubmitDisabled | src/components/payments/StripeCheckoutForm.tsx:66 | the submit button is disabled exactly when Stripe has not loaded or a payment is processing |
| StripeCheckoutForm.RetryAfterFailure | src/components/payments/StripeCheckoutForm.tsx:12-41 | after a completed attempt the form can be submitted again, and a thrown confirmation leaves the fixed failure message |
| EbookPopup.AcceptsEmail | src/components/ui/EbookPopup.tsx:22 | an address is accepted exactly when it contains `@`; the emptiness test adds nothing |
| EbookPopup.Popup.constructor | src/components/ui/EbookPopup.tsx:11-14 | the popup starts with an empty address, not submitting, not submitted and with no error |
| EbookPopup.Popup.SetEmail | src/components/ui/EbookPopup.tsx:103 | typing sets the address |
| EbookPopup.Popup.HandleSubmit | src/components/ui/EbookPopup.tsx:18-29 | the send is scheduled exactly for an address with `@`; otherwise the invalid-address error is shown and nothing else changes |
| EbookPopup.Popup.TimerFired | src/components/ui/EbookPopup.tsx:31-35 | when the simulated send completes, submitting ends and the popup is marked submitted |
| EbookPopup.Popup.Render | src/components/ui/EbookPopup.tsx:16-151 | nothing renders when closed; the thank-you view shows exactly when open and submitted; the submit button is disabled exactly while submitting; the error line shows exactly for a non-empty error, and shows that error; the submit caption reads "Sending..." while submitting and "Get My Free E-Book" otherwise |
| EbookPopup.SubmitValid | src/components/ui/EbookPopup.tsx:18-35 | a valid address submitted and the timer fired lead to the thank-you view |
| PaymentSuccessPage.StatusFor | src/pages/PaymentSuccessPage.tsx:17-30 | the status is success exactly for `redirect_status=succeeded`, processing exactly for `processing`, and failure for anything else including no parameter |
| PaymentSuccessPage.OrderId | src/pages/PaymentSuccessPage.tsx:23 | the random order id lies in 0..9999 |
| PaymentSuccessPage.AfterEffect | src/pages/PaymentSuccessPage.tsx:11-31 | each run of the effect sets the status for `redirect_status`; on success it sets order details with an id in 0..9999 and the given date, otherwise it keeps the previous details |
| PaymentSuccessPage.FirstRunDetailsIffSuccess | src/pages/PaymentSuccessPage.tsx:9-31 | on the first run, from the initial state, order details exist exactly when `redirect_status` is `succeeded` |
| PaymentSuccessPage.DetailsSurviveRerun | src/pages/PaymentSuccessPage.tsx:19-31 | when the query changes after a success to a status other than `succeeded`, the earlier order details are kept |
| PaymentSuccessPage.ExactlyOnePanel | src/pages/PaymentSuccessPage.tsx:36-97 | exactly one of the success, processing and error panels renders |
| ProgramDetail.Find | src/pages/ProgramDetail.tsx:91 | the lookup finds the first program with the route's id, and none exactly when no program has it |
| ProgramDetail.ProgramIdsDistinct | src/pages/ProgramDetail.tsx:20-79 | the three programs have distinct ids |
| ProgramDetail.FindsEachProgram | src/pages/ProgramDetail.tsx:20-91 | looking up a program's id finds that program |
| ProgramDetail.CheckoutProps | src/pages/ProgramDetail.tsx:227-233 | the checkout button receives the program's id, title and description, and an amount that is a whole number of rupees equal to the price, in paise |
| ProgramDetail.DetailPage.constructor | src/pages/ProgramDetail.tsx:84-85 | the page starts loading with no program |
| ProgramDetail.DetailPage.RunEffect | src/pages/ProgramDetail.tsx:87-97 | loading ends; a hit replaces the program and a miss keeps the previous one |
| ProgramDetail.DetailPage.Render | src/pages/ProgramDetail.tsx:99-120 | the spinner shows exactly while loading, "not found" exactly after loading with no program, and otherwise the program with its checkout props |
| ProgramDetail.StaleProgramAfterMiss | src/pages/ProgramDetail.tsx:87-97 | navigating from a known program to an unknown id keeps showing the known program |
| ProductCard.DefaultRoute | src/components/products/ProductCard.tsx:27-37 | any id outside the three routed ones links to `/programs/<id>`, from which the id can be read back |
| ProductCard.ProgramRoute | src/components/products/ProductCard.tsx:27-37 | a link goes to a training page exactly for the three routed ids; any other id goes to `/programs/<id>` |
| ProductCard.TableRoutesReachTrainingPages | src/components/products/ProductCard.tsx:27-35 | the three routed ids lead to training pages whose programs exist |
| ProductCard.Round | src/components/products/ProductCard.tsx:24 | `Math.round` returns an integer within one half of its argument |
| ProductCard.WholeRupees | src/components/products/ProductCard.tsx:24 | a whole-rupee price converts to exactly a hundred times as many paise |
| ProductCard.PriceInPaise | src/components/products/ProductCard.tsx:24 | the amount in paise is within one half of a hundred times the rupee price |
| ProductCard.Features | src/components/products/ProductCard.tsx:21 | missing features default to the empty list |
| ProductCard.CheckoutProps | src/components/products/ProductCard.tsx:90-96 | the card forwards its id, title, description and the price rounded to paise |
| ProductCard.CardAgreesWithDetailPage | src/components/products/ProductCard.tsx:24 | a card built from a detail-page entry (same id, title, description and price) forwards the same checkout props, with the same amount, as the detail page; the site's own program cards carry other prices for the same ids (see below) |

## Left out

- The Stripe SDK, Express routing, the `cors` package, `dotenv`, `app.listen` and all `console` logging are left out. The provider's behaviour is a parameter of the handler.
- The second server file `src/server/server.js` is not part of this model.
- `BasicCheckoutForm`, the contact and sign-up forms and the other pages are not part of this model.
- The request body is modelled only as a JSON value with integers and strings (`Js.Value`). Non-integer numbers, `NaN`, objects and arrays are not modelled.
- Timers and delays (`setTimeout`, the 1.5 s and 2.5 s simulated waits) collapse into the point where the handler resumes.
- `scrollIntoView`, `querySelector`, `window.location`, `IntersectionObserver`, `alert` and navigation are left out; only their inputs and outcomes are modelled.
- Intersection ratios and scroll offsets are exact reals, not IEEE doubles.
- `ProductCard.PriceInPaise` is over exact reals, so the floating-point error of `price * 100` before `Math.round` is not modelled.
- `Checkout.ParseInt` reads the full digit run exactly; the precision loss of `parseInt` on numbers beyond 2^53 is not modelled.
- `TrainingProgramPage.ProgramFor`: the lookup `trainingPrograms[programId]` is modelled on the three own keys only. Inherited object properties such as `constructor` are not modelled.
- `Checkout.CardNumberIdempotentOnDigits`: idempotence is proved for digit-only input only. With other characters the 19-character cut can stop right after an inserted space, and formatting again then removes it.
- The `catch` branch of `handleSubmit` in `src/pages/Checkout.tsx` can only run if the timer promise rejects, which it never does, so it is not modelled.
- The browser's own `required` and `type="email"` validation on the popup's input is not modelled; only the component's `@` check is.
- `toLocaleString` and `toLocaleDateString` formatting is not modelled; the date is a parameter.
- Checkout.CardNumber, Checkout.ExpiryDate, Checkout.Cvv: strings are sequences of Unicode scalar values, while JavaScript's `length` and `substring` count UTF-16 code units. For input with characters outside the Basic Multilingual Plane (an emoji, say) the model's cut to 19, 5 or 3 characters keeps whole characters where the browser would cut by code units and could split a surrogate pair.
- The program cards on `src/pages/Programs.tsx` (not part of this model) pass prices of 10000, 20000 and 30000 rupees for ids whose detail pages (src/pages/ProgramDetail.tsx:26, 45, 64) charge 7999, 9999 and 12999; `ProductCard.CardAgreesWithDetailPage` only covers a card built from a detail-page entry.
- Header.HeaderState: the page path is fixed when the header is created. The header sits outside the routes and keeps `activeSection` across navigation, so a return to `/` with a section left active from an earlier visit is not modelled.
- Rendering beyond which view, caption, error line and enabled state is shown (markup and styling) is not modelled.

=== FILE: Checkout.dfy ===
/**
 * The simulated card-checkout page (src/pages/Checkout.tsx): query-string defaults, the
 * program-name fallback table, the card-number / expiry / CVV input formatters, the
 * field-by-field form update, and the terms gate on submit.
 */
module Checkout {
  import opened Wrappers
  import opened Text
  import Js

  // ---------------------------------------------------------------- card number

  /** `\d{4}` matches at the start of `s`. */
  predicate StartsWithFourDigits(s: string) {
    |s| >= 4 && IsDigit(s[0]) && IsDigit(s[1]) && IsDigit(s[2]) && IsDigit(s[3])
  }

  /**
   * `.replace(/(\d{4})/g, '$1 ')`: scanning from the left, every run of four digits found is
   * copied followed by a space; any other character is copied as it is.
   */
  function GroupFours(s: string): (g: string)
    ensures |s| <= |g|
    ensures g == [] <==> s == []
  {
    if StartsWithFourDigits(s) then s[..4] + " " + GroupFours(s[4..])
    else if s == [] then []
    else [s[0]] + GroupFours(s[1..])
  }

  /** The card-number field: strip whitespace, space after each four digits, trim, at most 19. */
  function CardNumber(value: string): (r: string)
    ensures |r| <= 19
  {
    Take(Trim(GroupFours(RemoveWhitespace(value))), 19)
  }

  /** Digits in groups of four separated by single spaces, with no space at the end. */
  function Grouped(d: string): string
  {
    if |d| <= 4 then d else d[..4] + " " + Grouped(d[4..])
  }

  /** The inserted characters are spaces, so the non-whitespace content is unchanged. */
  lemma {:induction false} GroupFoursKeepsContent(s: string)
    ensures RemoveWhitespace(GroupFours(s)) == RemoveWhitespace(s)
  {
    if StartsWithFourDigits(s) {
      GroupFoursKeepsContent(s[4..]);
      FilterAppend(NotWhitespace, s[..4] + " ", GroupFours(s[4..]));
      FilterAppend(NotWhitespace, s[..4], " ");
      assert s == s[..4] + s[4..];
      FilterAppend(NotWhitespace, s[..4], s[4..]);
    } else if s != [] {
      GroupFoursKeepsContent(s[1..]);
      FilterAppend(NotWhitespace, [s[0]], GroupFours(s[1..]));
      assert s == [s[0]] + s[1..];
      FilterAppend(NotWhitespace, [s[0]], s[1..]);
    }
  }

  /**
   * Removing the spaces from the formatted card number gives a prefix of the input with all
   * whitespace removed: the formatter only inserts spaces and drops characters at the end.
   */
  lemma CardNumberContentIsPrefix(value: string)
    ensures RemoveWhitespace(CardNumber(value)) <= RemoveWhitespace(value)
  {
    var s := RemoveWhitespace(value);
    var t := Trim(GroupFours(s));
    FilterPrefix(NotWhitespace, t, |CardNumber(value)|);
    assert t[..|CardNumber(value)|] == CardNumber(value);
    TrimKeepsContent(GroupFours(s));
    GroupFoursKeepsContent(s);
    FilterIdempotent(NotWhitespace, value);
  }

  /** Fewer than four characters cannot contain a run of four digits. */
  lemma {:induction false} GroupFoursShort(s: string)
    requires |s| < 4
    ensures GroupFours(s) == s
  {
    if s != [] {
      GroupFoursShort(s[1..]);
    }
  }

  /** The space the replacement leaves after a last group that is full. */
  function TrailingSpace(n: nat): (pad: string)
    ensures pad == "" || pad == " "
  {
    if n > 0 && n % 4 == 0 then " " else ""
  }

  /** On digits, the regex replacement is `Grouped` plus a trailing space after a full last group. */
  lemma {:induction false} GroupFoursOnDigits(d: string)
    requires AllDigits(d)
    ensures GroupFours(d) == Grouped(d) + TrailingSpace(|d|)
  {
    if |d| < 4 {
      GroupFoursShort(d);
    } else {
      assert StartsWithFourDigits(d);
      GroupFoursOnDigits(d[4..]);
      if |d| == 4 {
        assert d[4..] == [] && d[..4] == d;
      } else {
        assert TrailingSpace(|d| - 4) == TrailingSpace(|d|);
      }
    }
  }

  lemma {:induction false} GroupedEnds(d: string)
    requires AllDigits(d) && d != []
    ensures Grouped(d) != [] && IsDigit(Grouped(d)[0]) && IsDigit(Grouped(d)[|Grouped(d)| - 1])
  {
    if |d| > 4 {
      GroupedEnds(d[4..]);
    }
  }

  /** After `k` full groups, the grouped text up to (not including) the k-th space is `Grouped` of `4k` digits. */
  lemma {:induction false} GroupedTake(d: string, k: nat)
    requires 1 <= k && |d| > 4 * k
    ensures 5 * k - 1 <= |Grouped(d)| && Grouped(d)[..5 * k - 1] == Grouped(d[..4 * k])
  {
    var rest := d[4..];
    if k == 1 {
      assert Grouped(d[..4]) == d[..4];
    } else {
      GroupedTake(rest, k - 1);
      assert d[..4 * k][..4] == d[..4];
      assert d[..4 * k][4..] == rest[..4 * (k - 1)];
    }
  }

  lemma TrimGroupedDigits(d: string)
    requires AllDigits(d)
    ensures Trim(GroupFours(d)) == Grouped(d)
  {
    assert GroupFours(d) == Grouped(d) + TrailingSpace(|d|) by {
      GroupFoursOnDigits(d);
    }
    assert d != [] ==> IsDigit(Grouped(d)[0]) && IsDigit(Grouped(d)[|Grouped(d)| - 1]) by {
      if d != [] {
        GroupedEnds(d);
      }
    }
    TrimDigitEnds(GroupFours(d), Grouped(d), TrailingSpace(|d|));
  }

  /** Digits contain no whitespace, so removing whitespace leaves them as they are. */
  lemma DigitsKeepContent(d: string)
    requires AllDigits(d)
    ensures RemoveWhitespace(d) == d
  {
    forall i | 0 <= i < |d|
      ensures NotWhitespace(d[i])
    {
      DigitNotWhitespace(d[i]);
    }
    FilterKeepsAll(NotWhitespace, d);
  }

  /** Grouping adds one separator between each two groups of four. */
  lemma {:induction false} GroupedLength(d: string)
    ensures d != [] ==> |Grouped(d)| == |d| + (|d| - 1) / 4
  {
    if |d| > 4 {
      GroupedLength(d[4..]);
    }
  }

  /** On digit-only input the field keeps the first sixteen digits, grouped by four. */
  lemma CardNumberOfDigits(d: string)
    requires AllDigits(d)
    ensures CardNumber(d) == Grouped(d[..if |d| <= 16 then |d| else 16])
  {
    assert RemoveWhitespace(d) == d by {
      DigitsKeepContent(d);
    }
    assert Trim(GroupFours(d)) == Grouped(d) by {
      TrimGroupedDigits(d);
    }
    assert CardNumber(d) == Take(Grouped(d), 19);
    if |d| > 16 {
      GroupedTake(d, 4);
    } else {
      GroupedLength(d);
      assert d[..|d|] == d;
    }
  }

  lemma GroupedSixteen(d: string)
    requires |d| == 16
    ensures Grouped(d) == d[..4] + " " + d[4..8] + " " + d[8..12] + " " + d[12..16]
  {
    var d4, d8, d12 := d[4..], d[8..], d[12..];
    assert d4[4..] == d8 && d8[4..] == d12;
    assert Grouped(d12) == d12 == d[12..16];
    assert Grouped(d8) == d8[..4] + " " + Grouped(d12);
    assert d8[..4] == d[8..12];
    assert Grouped(d4) == d4[..4] + " " + Grouped(d8);
    assert d4[..4] == d[4..8];
  }

  /** Sixteen digits come out as `dddd dddd dddd dddd`. */
  lemma CardNumberSixteenDigits(d: string)
    requires AllDigits(d) && |d| == 16
    ensures CardNumber(d) == d[..4] + " " + d[4..8] + " " + d[8..12] + " " + d[12..16]
  {
    CardNumberOfDigits(d);
    assert d[..16] == d;
    GroupedSixteen(d);
  }

  lemma {:induction false} GroupedContent(d: string)
    requires AllDigits(d)
    ensures RemoveWhitespace(Grouped(d)) == d
  {
    if |d| <= 4 {
      DigitsKeepContent(d);
    } else {
      var head, rest := d[..4], d[4..];
      assert RemoveWhitespace(Grouped(rest)) == rest by {
        GroupedContent(rest);
      }
      assert RemoveWhitespace(head + " ") == head by {
        DigitsKeepContent(head);
        FilterAppend(NotWhitespace, head, " ");
      }
      assert Grouped(d) == (head + " ") + Grouped(rest);
      FilterAppend(NotWhitespace, head + " ", Grouped(rest));
      assert d == head + rest;
    }
  }

  /** The field's value depends only on the non-whitespace characters typed. */
  lemma CardNumberDependsOnContent(value: string)
    ensures CardNumber(value) == CardNumber(RemoveWhitespace(value))
  {
    FilterIdempotent(NotWhitespace, value);
  }

  /** Up to sixteen digits, once grouped, are a fixed point of the formatter. */
  lemma CardNumberOfGrouped(e: string)
    requires AllDigits(e) && |e| <= 16
    ensures CardNumber(Grouped(e)) == Grouped(e)
  {
    assert CardNumber(Grouped(e)) == CardNumber(RemoveWhitespace(Grouped(e))) by {
      CardNumberDependsOnContent(Grouped(e));
    }
    assert RemoveWhitespace(Grouped(e)) == e by {
      GroupedContent(e);
    }
    assert CardNumber(e) == Grouped(e) by {
      CardNumberOfDigits(e);
      assert e[..|e|] == e;
    }
  }

  /** Reformatting the field's value after digit-only input leaves it unchanged. */
  lemma CardNumberIdempotentOnDigits(d: string)
    ensures AllDigits(d) ==> CardNumber(CardNumber(d)) == CardNumber(d)
  {
    if AllDigits(d) {
      var e := d[..if |d| <= 16 then |d| else 16];
      CardNumberOfDigits(d);
      CardNumberOfGrouped(e);
    }
  }

  // ---------------------------------------------------------------- expiry and CVV

  /** The expiry field: digits only; with more than two, `MM/YY` built from the first four. */
  function ExpiryDate(value: string): (r: string)
    ensures |r| <= 5
  {
    var digits := KeepDigits(value);
    if |digits| <= 2 then digits else digits[..2] + "/" + Take(digits[2..], 2)
  }

  /**
   * The expiry keeps exactly the first (at most four) digits of the input, and carries a `/`
   * at position 2, and nowhere else, exactly when more than two digits were typed.
   */
  lemma ExpiryDateShape(value: string)
    ensures KeepDigits(ExpiryDate(value)) == Take(KeepDigits(value), 4)
    ensures |KeepDigits(value)| <= 2 ==> ExpiryDate(value) == KeepDigits(value)
    ensures var r := ExpiryDate(value);
      (forall i :: 0 <= i < |r| ==> IsDigit(r[i]) || (i == 2 && r[i] == '/'))
      && (|KeepDigits(value)| > 2 <==> |r| > 2 && r[2] == '/')
  {
    var d := KeepDigits(value);
    var r := ExpiryDate(value);
    if |d| <= 2 {
      FilterIdempotent(IsDigit, value);
    } else {
      var tail := Take(d[2..], 2);
      assert r == d[..2] + "/" + tail;
      FilterAppend(IsDigit, d[..2] + "/", tail);
      FilterAppend(IsDigit, d[..2], "/");
      FilterKeepsAll(IsDigit, d[..2]);
      FilterKeepsAll(IsDigit, tail);
      assert Take(d, 4) == d[..2] + tail;
    }
  }

  lemma ExpiryDateIdempotent(value: string)
    ensures ExpiryDate(ExpiryDate(value)) == ExpiryDate(value)
  {
    ExpiryDateShape(value);
    var d := KeepDigits(value);
    var d' := Take(d, 4);
    if |d| > 2 {
      assert d'[..2] == d[..2];
      assert d'[2..] == Take(d[2..], 2);
    }
  }

  /** The CVV field: the first (at most) three digits of the input. */
  function Cvv(value: string): (r: string)
    ensures |r| <= 3 && AllDigits(r)
    ensures r <= KeepDigits(value)
    ensures |r| == 3 || r == KeepDigits(value)
  {
    Take(KeepDigits(value), 3)
  }

  lemma CvvIdempotent(value: string)
    ensures Cvv(Cvv(value)) == Cvv(value)
  {
    FilterKeepsAll(IsDigit, Cvv(value));
  }

  // ---------------------------------------------------------------- query and names

  /** `getProgramName`: the fallback display name for a program id. */
  function ProgramName(programId: string): (name: string)
    ensures name == "BJJ Program" <==>
      programId !in {"beginner", "beginners-course", "intermediate", "advanced", "advanced-course", "private-lessons"}
  {
    match programId
    case "beginner" => "Beginner BJJ Program"
    case "beginners-course" => "Beginner BJJ Program"
    case "intermediate" => "Intermediate BJJ Program"
    case "advanced" => "Advanced Instructor Program"
    case "advanced-course" => "Advanced Instructor Program"
    case "private-lessons" => "Private BJJ Lessons"
    case _ => "BJJ Program"
  }

  /** Two ids share a name exactly when they are aliases of one program or both unknown. */
  lemma ProgramNameAliases(a: string, b: string)
    ensures ProgramName(a) == ProgramName(b) <==>
      a == b
      || ({a, b} <= {"beginner", "beginners-course"})
      || ({a, b} <= {"advanced", "advanced-course"})
      || (ProgramName(a) == "BJJ Program" && ProgramName(b) == "BJJ Program")
  {
  }

  /**
   * `parseInt(s, 10)`: leading whitespace, an optional sign, then the longest run of digits;
   * `None` is `NaN`.
   */
  function ParseInt(s: string): (n: Option<int>)
    ensures TrimStart(s) == [] ==> n.None?
    ensures n.Some? && n.value < 0 ==> TrimStart(s)[0] == '-'
  {
    var t := TrimStart(s);
    var negative := t != [] && t[0] == '-';
    var unsigned := if t != [] && (t[0] == '-' || t[0] == '+') then t[1..] else t;
    var d := DigitPrefix(unsigned);
    if d == [] then None else Some(if negative then -(DigitsValue(d) as int) else DigitsValue(d))
  }

  /** The program parameters read from the query string (`URLSearchParams.get`). */
  datatype Query = Query(program: Option<string>, name: Option<string>, price: Option<string>)

  function QueryProgramId(q: Query): string { Js.Or(q.program, "") }

  function QueryProgramName(q: Query): string { Js.Or(q.name, ProgramName(QueryProgramId(q))) }

  function QueryPrice(q: Query): Option<int> { ParseInt(Js.Or(q.price, "0")) }

  /** The defaults: a name parameter wins over the table, a missing price reads as 0. */
  lemma QueryDefaults(q: Query)
    ensures q.program.None? ==> QueryProgramId(q) == ""
    ensures q.name.Some? && q.name.value != "" ==> QueryProgramName(q) == q.name.value
    ensures q.name.None? ==> QueryProgramName(q) == ProgramName(QueryProgramId(q))
    ensures q.price.None? ==> QueryPrice(q) == Some(0)
  {
    if q.price.None? {
      assert NatToString(0) == "0";
      ParseIntOfNat(0);
    }
  }

  /** A price written in decimal digits reads back as that number. */
  lemma {:induction false} ParseIntOfNat(n: nat)
    ensures ParseInt(NatToString(n)) == Some(n)
  {
    var s := NatToString(n);
    assert TrimStart(s) == s;
    DigitPrefixAll(s);
    NatToStringRoundTrip(n);
  }

  // ---------------------------------------------------------------- the form

  /** A form field's value: text, or the flag a checkbox sets. */
  datatype FieldValue = StrVal(s: string) | BoolVal(b: bool)

  predicate Truthy(v: FieldValue) {
    match v
    case StrVal(s) => s != ""
    case BoolVal(b) => b
  }

  /** The parts of an input's change event that `handleChange` reads. */
  datatype ChangeEvent = ChangeEvent(name: string, value: string, inputType: string, checked: bool)

  /** The new value `handleChange` stores under the event's field name. */
  function ChangedValue(e: ChangeEvent): (v: FieldValue)
    ensures e.name == "cardNumber" ==> v == StrVal(CardNumber(e.value))
    ensures e.name == "expiryDate" ==> v == StrVal(ExpiryDate(e.value))
    ensures e.name == "cvv" ==> v == StrVal(Cvv(e.value))
    ensures e.name !in {"cardNumber", "expiryDate", "cvv"} ==>
      v == (if e.inputType == "checkbox" then BoolVal(e.checked) else StrVal(e.value))
  {
    if e.name == "cardNumber" then StrVal(CardNumber(e.value))
    else if e.name == "expiryDate" then StrVal(ExpiryDate(e.value))
    else if e.name == "cvv" then StrVal(Cvv(e.value))
    else if e.inputType == "checkbox" then BoolVal(e.checked)
    else StrVal(e.value)
  }

  const InitialForm: map<string, FieldValue> := map[
    "cardNumber" := StrVal(""), "cardHolder" := StrVal(""), "expiryDate" := StrVal(""),
    "cvv" := StrVal(""), "agreeToTerms" := BoolVal(false)]

  /** `/payment-success?session_id=<programId>_<timestamp>` */
  function SessionUrl(programId: string, now: nat): string {
    "/payment-success?session_id=" + SessionId(programId, now)
  }

  function SessionId(programId: string, now: nat): string {
    programId + "_" + NatToString(now)
  }

  /** Splits a session id at its last `_` into the program id and the timestamp. */
  function ParseSessionId(sid: string): Option<(string, nat)>
  {
    match LastIndexOf(sid, '_')
    case None => None
    case Some(i) =>
      var digits := sid[i + 1..];
      if digits != [] && AllDigits(digits) then Some((sid[..i], DigitsValue(digits))) else None
  }

  /**
   * The session id can be split back into the program id and the timestamp it was built
   * from, even when the program id itself contains `_`.
   */
  lemma SessionIdRoundTrip(programId: string, now: nat)
    ensures ParseSessionId(SessionId(programId, now)) == Some((programId, now))
  {
    var digits := NatToString(now);
    LastIndexOfSplit(programId, '_', digits);
    NatToStringRoundTrip(now);
  }

  /** The page's state: the parsed query, the form record and the processing flag. */
  class CheckoutPage {
    const programId: string
    const programName: string
    const price: Option<int>
    var formData: map<string, FieldValue>
    var isProcessing: bool

    constructor (q: Query)
      ensures programId == QueryProgramId(q) && programName == QueryProgramName(q)
      ensures price == QueryPrice(q)
      ensures formData == InitialForm && !isProcessing
    {
      programId := QueryProgramId(q);
      programName := QueryProgramName(q);
      price := QueryPrice(q);
      formData := InitialForm;
      isProcessing := false;
    }

    /** `handleChange`: only the named field changes. */
    method HandleChange(e: ChangeEvent)
      modifies this`formData
      ensures formData == old(formData)[e.name := ChangedValue(e)]
      ensures forall k :: k in old(formData) && k != e.name ==> k in formData && formData[k] == old(formData)[k]
    {
      formData := formData[e.name := ChangedValue(e)];
    }

    /** The terms checkbox has been ticked (its value is truthy). */
    predicate AgreedToTerms()
      reads this
      ensures AgreedToTerms() <==>
        "agreeToTerms" in formData && formData["agreeToTerms"] != BoolVal(false) && formData["agreeToTerms"] != StrVal("")
    {
      "agreeToTerms" in formData && Truthy(formData["agreeToTerms"])
    }

    /**
     * `handleSubmit` at time `now`: without agreement only an alert is shown; otherwise the
     * page starts processing and, after the simulated delay, navigates to the success page.
     */
    method HandleSubmit(now: nat) returns (alerted: bool, navigation: Option<string>)
      modifies this`isProcessing
      ensures alerted <==> !AgreedToTerms()
      ensures alerted ==> isProcessing == old(isProcessing) && navigation.None?
      ensures !alerted ==> isProcessing && navigation == Some(SessionUrl(programId, now))
    {
      if !AgreedToTerms() {
        return true, None;
      }
      isProcessing := true;
      navigation := Some(SessionUrl(programId, now));
      alerted := false;
    }

    /** The Pay button is disabled exactly while processing. */
    function PayDisabled(): (disabled: bool)
      reads this
      ensures disabled <==> isProcessing
    {
      isProcessing
    }
  }
}

=== FILE: CheckoutButton.dfy ===
/**
 * The checkout button (src/components/checkout/CheckoutButton.tsx). Its live path simulates
 * a checkout: after a delay it navigates to the success page with a `demo_<timestamp>`
 * session id. The request to a checkout-session endpoint exists only as commented-out code,
 * so none of the props reaches the navigation.
 *
 * `handleCheckout` is split at its `await` into `StartCheckout` and `FinishCheckout`; the
 * clock reading `Date.now()` is the parameter `now`.
 */
module CheckoutButton {
  import opened Wrappers
  import opened Text

  /** The props the button receives (`variant` only styles it). */
  datatype Props = Props(programId: string, amount: int, name: string, description: Option<string>)

  const CheckoutFailedMessage := "Failed to process checkout." + " Please try again later or contact support."

  const DemoPrefix := "/payment-success?session_id=demo_"

  /** Where the simulated checkout lands: `/payment-success?session_id=demo_<now>`. */
  function DemoSuccessUrl(now: nat): (url: string)
    ensures DemoPrefix <= url && AllDigits(url[|DemoPrefix|..])
  {
    DemoPrefix + NatToString(now)
  }

  /** The timestamp is read back from the URL, so distinct clicks give distinct session ids. */
  lemma DemoSuccessUrlRoundTrip(now: nat)
    ensures DigitsValue(DemoSuccessUrl(now)[|DemoPrefix|..]) == now
  {
    assert DemoSuccessUrl(now)[|DemoPrefix|..] == NatToString(now);
    NatToStringRoundTrip(now);
  }

  /** Whether the simulated step completed or threw. */
  datatype SimulatedOutcome = Completed | Threw

  class Button {
    const props: Props
    var isLoading: bool
    var error: Option<string>

    constructor (props: Props)
      ensures this.props == props && !isLoading && error.None?
    {
      this.props := props;
      isLoading, error := false, None;
    }

    /** `handleCheckout` up to the simulated delay. */
    method StartCheckout()
      modifies this`isLoading, this`error
      ensures isLoading && error.None?
    {
      isLoading := true;
      error := None;
    }

    /** The rest of `handleCheckout`: navigate, or show the fixed failure message; then stop loading. */
    method FinishCheckout(outcome: SimulatedOutcome, now: nat) returns (navigation: Option<string>)
      modifies this`isLoading, this`error
      ensures !isLoading
      ensures outcome == Completed ==> navigation == Some(DemoSuccessUrl(now)) && error == old(error)
      ensures outcome == Threw ==> navigation.None? && error == Some(CheckoutFailedMessage)
    {
      if outcome == Completed {
        navigation := Some(DemoSuccessUrl(now));
      } else {
        navigation := None;
        error := Some(CheckoutFailedMessage);
      }
      isLoading := false;
    }

    /** The button is disabled, and reads "Processing...", exactly while loading. */
    function Disabled(): (disabled: bool)
      reads this
      ensures disabled <==> isLoading
    {
      isLoading
    }

    function Caption(): (c: string)
      reads this
      ensures c == "Processing..." <==> Disabled()
    {
      if isLoading then "Processing..." else "Checkout"
    }

    /** The error line is rendered only when there is an error. */
    function ErrorShown(): (e: Option<string>)
      reads this
      ensures e.Some? <==> error.Some? && error.value != ""
      ensures e.Some? ==> e == error
    {
      if error.Some? && error.value != "" then error else None
    }
  }
}

=== FILE: EbookPopup.dfy ===
/**
 * The free e-book popup (src/components/ui/EbookPopup.tsx): the `@` check on submit, the
 * submitting/submitted flags, and which view is rendered. The simulated send is a timer;
 * its callback is `TimerFired`.
 */
module EbookPopup {
  import opened Wrappers

  const InvalidEmailMessage := "Please enter a valid email address"

  /** `email && email.includes('@')` */
  predicate AcceptsEmail(email: string)
    ensures AcceptsEmail(email) <==> '@' in email
  {
    email != "" && '@' in email
  }

  datatype View =
    | Closed
    | EmailForm(error: Option<string>, submitDisabled: bool, caption: string)
    | ThankYou

  class Popup {
    var email: string
    var isSubmitting: bool
    var isSubmitted: bool
    var error: Option<string>

    constructor ()
      ensures email == "" && !isSubmitting && !isSubmitted && error.None?
    {
      email, isSubmitting, isSubmitted, error := "", false, false, None;
    }

    /** The input's `onChange`. */
    method SetEmail(value: string)
      modifies this`email
      ensures email == value
    {
      email := value;
    }

    /** `handleSubmit`: reject without `@`, otherwise start sending and schedule the timer. */
    method HandleSubmit() returns (timerScheduled: bool)
      modifies this`isSubmitting, this`error
      ensures timerScheduled <==> AcceptsEmail(email)
      ensures !timerScheduled ==>
        error == Some(InvalidEmailMessage) && isSubmitting == old(isSubmitting)
      ensures timerScheduled ==> error.None? && isSubmitting
    {
      if email == "" || '@' !in email {
        error := Some(InvalidEmailMessage);
        return false;
      }
      error := None;
      isSubmitting := true;
      timerScheduled := true;
    }

    /** The timer callback: sending is over and the thank-you view replaces the form. */
    method TimerFired()
      modifies this`isSubmitting, this`isSubmitted
      ensures !isSubmitting && isSubmitted
    {
      isSubmitting := false;
      isSubmitted := true;
    }

    function Render(isOpen: bool): (v: View)
      reads this
      ensures v.Closed? <==> !isOpen
      ensures v.ThankYou? <==> isOpen && isSubmitted
      ensures v.EmailForm? ==> (v.submitDisabled <==> isSubmitting)
      ensures v.EmailForm? ==> (v.error.Some? <==> error.Some? && error.value != "")
      ensures v.EmailForm? && v.error.Some? ==> v.error == error
      ensures v.EmailForm? ==> v.caption == (if isSubmitting then "Sending..." else "Get My Free E-Book")
    {
      if !isOpen then Closed
      else if isSubmitted then ThankYou
      else EmailForm(if error.Some? && error.value != "" then error else None,
                     isSubmitting, if isSubmitting then "Sending..." else "Get My Free E-Book")
    }
  }

  /** A valid address submitted and the timer fired: the thank-you view is shown. */
  method SubmitValid(p: Popup, address: string)
    requires '@' in address
    modifies p
    ensures p.Render(true) == ThankYou
  {
    p.SetEmail(address);
    var scheduled := p.HandleSubmit();
    p.TimerFired();
  }
}

=== FILE: Header.dfy ===
/**
 * The site header (src/components/layout/Header.tsx): picking the active section from
 * intersection-observer entries, deciding which nav item is highlighted, the click handler
 * for nav links, the mobile-menu toggle and the scroll threshold.
 *
 * The IntersectionObserver, `scrollIntoView`, `document.querySelector` and
 * `window.location` are not modelled; their inputs and effects are parameters and results.
 */
module Header {
  import opened Wrappers

  datatype NavItem = NavItem(name: string, path: string)

  const NavItems: seq<NavItem> := [
    NavItem("Home", "/"),
    NavItem("Training", "#training"),
    NavItem("Instructors", "#instructors"),
    NavItem("Testimonials", "#testimonials"),
    NavItem("Contact", "#cta")
  ]

  const HomePath := "/"

  predicate IsHash(path: string) {
    |path| > 0 && path[0] == '#'
  }

  // ---------------------------------------------------------------- active section

  /** What `handleIntersect` reads of an observer entry; the ratio is an exact real here. */
  datatype Entry = Entry(isIntersecting: bool, intersectionRatio: real, targetId: string)

  /**
   * `entries.filter(e => e.isIntersecting).reduce((prev, cur) =>
   *    prev.intersectionRatio > cur.intersectionRatio ? prev : cur)`, as the index of the
   * chosen entry in `entries`; `None` when nothing intersects. The result is an intersecting
   * entry of maximal ratio, and no later intersecting entry has the same ratio.
   */
  function TopEntry(entries: seq<Entry>): (k: Option<nat>)
    ensures k.None? <==> forall j :: 0 <= j < |entries| ==> !entries[j].isIntersecting
    ensures k.Some? ==> k.value < |entries| && entries[k.value].isIntersecting
    ensures k.Some? ==> forall j :: 0 <= j < |entries| && entries[j].isIntersecting ==>
      entries[j].intersectionRatio <= entries[k.value].intersectionRatio
    ensures k.Some? ==> forall j :: k.value < j < |entries| && entries[j].isIntersecting ==>
      entries[j].intersectionRatio < entries[k.value].intersectionRatio
  {
    if entries == [] then None
    else
      var last := |entries| - 1;
      var prev := TopEntry(entries[..last]);
      if !entries[last].isIntersecting then prev
      else if prev.Some? && entries[prev.value].intersectionRatio > entries[last].intersectionRatio then prev
      else Some(last)
  }

  /** The active-section value for a chosen section id: `top` and the empty id mean Home. */
  function SectionFor(id: string): (s: string)
    ensures s == "" <==> id == "top" || id == ""
    ensures s != "" ==> s == "#" + id
  {
    if id == "top" || id == "" then "" else "#" + id
  }

  /** The active section after `handleIntersect(entries)`. */
  function NextActiveSection(current: string, entries: seq<Entry>): (s: string)
    ensures TopEntry(entries).None? ==> s == current
    ensures TopEntry(entries).Some? ==> s == SectionFor(entries[TopEntry(entries).value].targetId)
  {
    match TopEntry(entries)
    case None => current
    case Some(k) => SectionFor(entries[k].targetId)
  }

  /** When one entry strictly outranks every other intersecting one, it is the one chosen. */
  lemma UniqueMaximumChosen(entries: seq<Entry>, k: nat)
    requires k < |entries| && entries[k].isIntersecting
    requires forall j :: 0 <= j < |entries| && j != k && entries[j].isIntersecting ==>
      entries[j].intersectionRatio < entries[k].intersectionRatio
    ensures TopEntry(entries) == Some(k)
  {
  }

  /** Among equally visible entries, the later one wins. */
  lemma TieGoesToLater(a: Entry, b: Entry)
    requires a.isIntersecting && b.isIntersecting && a.intersectionRatio == b.intersectionRatio
    ensures TopEntry([a, b]) == Some(1)
  {
  }

  // ---------------------------------------------------------------- highlighting

  /** `isNavItemActive(path)` on the page at `pathname` with the given active section. */
  predicate IsNavItemActive(pathname: string, activeSection: string, path: string)
    ensures IsNavItemActive(pathname, activeSection, path) ==> pathname == path || pathname == HomePath
    ensures IsNavItemActive(pathname, activeSection, path) && pathname == HomePath && path != "/" ==>
      activeSection == path
    ensures pathname == path && path != "/" && !IsHash(path) ==> IsNavItemActive(pathname, activeSection, path)
  {
    var isHomePage := pathname == HomePath;
    if path == "/" then (isHomePage && activeSection == "") || (!isHomePage && pathname == "/")
    else if IsHash(path) then isHomePage && activeSection == path
    else pathname == path
  }

  /** On the home page, Home is active exactly when no section is, and a section link exactly when it is the active section. */
  lemma ActiveOnHomePage(activeSection: string, path: string)
    ensures IsNavItemActive(HomePath, activeSection, "/") <==> activeSection == ""
    ensures IsHash(path) ==> (IsNavItemActive(HomePath, activeSection, path) <==> activeSection == path)
  {
  }

  lemma NavPathsDistinct()
    ensures forall i, j :: 0 <= i < j < |NavItems| ==> NavItems[i].path != NavItems[j].path
  {
  }

  /** At most one nav item is highlighted, whatever the page and the active section. */
  lemma AtMostOneActive(pathname: string, activeSection: string, i: nat, j: nat)
    requires i < |NavItems| && j < |NavItems|
    requires IsNavItemActive(pathname, activeSection, NavItems[i].path)
    requires IsNavItemActive(pathname, activeSection, NavItems[j].path)
    ensures i == j
  {
  }

  /** Off the home page no nav item is highlighted: Home's second disjunct can never hold. */
  lemma NoneActiveOffHomePage(pathname: string, activeSection: string, i: nat)
    requires pathname != HomePath && i < |NavItems|
    ensures !IsNavItemActive(pathname, activeSection, NavItems[i].path)
  {
  }

  // ---------------------------------------------------------------- the header state

  /** What a click on a nav link does. */
  datatype ClickEffect =
    | ScrolledTo(section: string)       // default prevented, smooth scroll, section made active
    | Prevented                         // default prevented, nothing else (target missing)
    | Redirected(url: string)           // default prevented, `window.location.href = url`
    | FollowedLink                      // the browser follows the link's href

  const ScrollThreshold: real := 50.0

  class HeaderState {
    const pathname: string
    var isScrolled: bool
    var mobileMenuOpen: bool
    var activeSection: string

    function IsHomePage(): bool { pathname == HomePath }

    constructor (pathname: string)
      ensures this.pathname == pathname
      ensures !isScrolled && !mobileMenuOpen && activeSection == ""
    {
      this.pathname := pathname;
      isScrolled, mobileMenuOpen, activeSection := false, false, "";
    }

    /** The scroll listener: the header is compact exactly past 50 pixels. */
    method HandleScroll(scrollY: real)
      modifies this`isScrolled
      ensures isScrolled <==> scrollY > ScrollThreshold
    {
      isScrolled := scrollY > ScrollThreshold;
    }

    /** The observer callback; the observer is only installed on the home page. */
    method HandleIntersect(entries: seq<Entry>)
      modifies this`activeSection
      ensures activeSection == if IsHomePage() then NextActiveSection(old(activeSection), entries)
                               else old(activeSection)
      ensures activeSection != old(activeSection) ==> activeSection == "" || IsHash(activeSection)
    {
      if IsHomePage() {
        var top := TopEntry(entries);
        if top.Some? {
          var sectionId := entries[top.value].targetId;
          if sectionId == "top" || sectionId == "" {
            activeSection := "";
          } else {
            activeSection := "#" + sectionId;
          }
        }
      }
    }

    /**
     * `handleSmoothScroll(e, path)`; `targetPresent` says whether `document.querySelector(path)`
     * finds an element.
     */
    method HandleSmoothScroll(path: string, targetPresent: bool) returns (effect: ClickEffect)
      modifies this`activeSection
      ensures IsHash(path) && IsHomePage() && targetPresent ==>
        effect == ScrolledTo(path) && activeSection == path
      ensures IsHash(path) && IsHomePage() && !targetPresent ==>
        effect == Prevented && activeSection == old(activeSection)
      ensures IsHash(path) && !IsHomePage() ==>
        effect == Redirected("/" + path) && activeSection == old(activeSection)
      ensures !IsHash(path) ==> effect == FollowedLink && activeSection == old(activeSection)
    {
      if IsHash(path) && IsHomePage() {
        if targetPresent {
          activeSection := path;
          effect := ScrolledTo(path);
        } else {
          effect := Prevented;
        }
      } else if path == "/" && !IsHomePage() {
        effect := FollowedLink;
      } else if IsHash(path) && !IsHomePage() {
        effect := Redirected("/" + path);
      } else {
        effect := FollowedLink;
      }
    }

    method ToggleMobileMenu()
      modifies this`mobileMenuOpen
      ensures mobileMenuOpen == !old(mobileMenuOpen)
    {
      mobileMenuOpen := !mobileMenuOpen;
    }
  }

  /** Two toggles restore the mobile menu. */
  method ToggleTwice(h: HeaderState)
    modifies h
    ensures h.mobileMenuOpen == old(h.mobileMenuOpen)
  {
    h.ToggleMobileMenu();
    h.ToggleMobileMenu();
  }
}

=== FILE: Js.dfy ===
/**
 * The few JavaScript value rules the handlers rely on: which values are falsy, and the
 * `a || b` default idiom.
 */
module Js {
  import opened Wrappers

  /**
   * A value taken from a parsed JSON request body. Numbers are integers here; objects and
   * arrays are not distinguished because no handler looks inside them.
   */
  datatype Value = Undefined | Null | Bool(b: bool) | Num(n: int) | Str(s: string)

  /** JavaScript truthiness: `undefined`, `null`, `false`, `0` and `''` are falsy. */
  predicate Truthy(v: Value)
    ensures !Truthy(v) <==> v in {Undefined, Null, Bool(false), Num(0), Str("")}
  {
    match v
    case Undefined => false
    case Null => false
    case Bool(b) => b
    case Num(n) => n != 0
    case Str(s) => s != ""
  }

  /** `a || d` where `a` is a string, `null` or `undefined`. */
  function Or(a: Option<string>, d: string): (r: string)
    ensures a.Some? && a.value != "" ==> r == a.value
    ensures a.None? || a.value == "" ==> r == d
  {
    if a.Some? && a.value != "" then a.value else d
  }
}

=== FILE: PaymentSuccessPage.dfy ===
/**
 * The page the payment provider redirects back to (src/pages/PaymentSuccessPage.tsx): the
 * `redirect_status` query parameter decides one of three outcomes. The random order id and
 * the date are the parameters `random` (the value `Math.random()` returned) and `date`.
 */
module PaymentSuccessPage {
  import opened Wrappers

  datatype PaymentStatus = Success | Processing | Failed

  datatype OrderDetails = OrderDetails(id: int, date: string)

  datatype PageState = PageState(status: PaymentStatus, orderDetails: Option<OrderDetails>)

  /** Before the effect runs. */
  const Initial := PageState(Processing, None)

  /** The status for the `redirect_status` parameter (`None` when it is absent). */
  function StatusFor(redirectStatus: Option<string>): (s: PaymentStatus)
    ensures s == Success <==> redirectStatus == Some("succeeded")
    ensures s == Processing <==> redirectStatus == Some("processing")
  {
    if redirectStatus == Some("succeeded") then Success
    else if redirectStatus == Some("processing") then Processing
    else Failed
  }

  /** `Math.floor(x * 10000)` for `x = Math.random()`. */
  function OrderId(random: real): (id: int)
    requires 0.0 <= random < 1.0
    ensures 0 <= id < 10000
  {
    (random * 10000.0).Floor
  }

  /**
   * The state after the effect runs on `prev` (it runs on mount and again whenever the query
   * changes): success sets the status and fresh order details; the other outcomes set only
   * the status, so earlier details are kept.
   */
  function AfterEffect(prev: PageState, redirectStatus: Option<string>, random: real, date: string): (st: PageState)
    requires 0.0 <= random < 1.0
    ensures st.status == StatusFor(redirectStatus)
    ensures st.status == Success ==>
      st.orderDetails.Some? && 0 <= st.orderDetails.value.id < 10000 && st.orderDetails.value.date == date
    ensures st.status != Success ==> st.orderDetails == prev.orderDetails
  {
    if StatusFor(redirectStatus) == Success then PageState(Success, Some(OrderDetails(OrderId(random), date)))
    else PageState(StatusFor(redirectStatus), prev.orderDetails)
  }

  /** On the first run, from the initial state, order details exist exactly on success. */
  lemma FirstRunDetailsIffSuccess(redirectStatus: Option<string>, random: real, date: string)
    requires 0.0 <= random < 1.0
    ensures AfterEffect(Initial, redirectStatus, random, date).orderDetails.Some?
            <==> redirectStatus == Some("succeeded")
  {
  }

  /** A re-run after a success, with a status other than `succeeded`, keeps the earlier details. */
  lemma DetailsSurviveRerun(first: Option<string>, second: Option<string>, r1: real, r2: real, d1: string, d2: string)
    requires 0.0 <= r1 < 1.0 && 0.0 <= r2 < 1.0
    requires first == Some("succeeded") && second != Some("succeeded")
    ensures var st := AfterEffect(AfterEffect(Initial, first, r1, d1), second, r2, d2);
      st.status != Success && st.orderDetails == Some(OrderDetails(OrderId(r1), d1))
  {
  }

  datatype Panel = SuccessPanel | ProcessingPanel | ErrorPanel

  /** Each panel's render guard: `paymentStatus === 'success'` and so on. */
  predicate PanelShown(status: PaymentStatus, panel: Panel) {
    match panel
    case SuccessPanel => status == Success
    case ProcessingPanel => status == Processing
    case ErrorPanel => status == Failed
  }

  /** Exactly one of the three panels renders. */
  lemma ExactlyOnePanel(status: PaymentStatus)
    ensures exists p :: PanelShown(status, p)
    ensures forall p, q :: PanelShown(status, p) && PanelShown(status, q) ==> p == q
  {
    var p := match status case Success => SuccessPanel case Processing => ProcessingPanel case Failed => ErrorPanel;
    assert PanelShown(status, p);
  }
}

=== FILE: ProductCard.dfy ===
/**
 * The product card (src/components/products/ProductCard.tsx): the route table for the
 * "View Program" link, the rupee-to-paise conversion and the props forwarded to the
 * checkout button.
 */
module ProductCard {
  import opened Wrappers
  import CheckoutButton
  import ProgramDetail
  import TrainingProgramPage

  const RoutedIds: set<string> := {"beginners-course", "advanced-course", "private-lessons"}

  const ProgramsPrefix := "/programs/"

  const TrainingPrefix := "/training/"

  /** `getProgramRoute` */
  function ProgramRoute(programId: string): (route: string)
    ensures programId in RoutedIds <==> TrainingPrefix <= route
    ensures programId !in RoutedIds ==> route == ProgramsPrefix + programId
  {
    match programId
    case "beginners-course" => "/training/beginner"
    case "advanced-course" => "/training/advanced"
    case "private-lessons" => "/training/intermediate"
    case _ =>
      assert (ProgramsPrefix + programId)[1] != TrainingPrefix[1];
      ProgramsPrefix + programId
  }

  /** Any other id links to its program page, and the id can be read back from the route. */
  lemma DefaultRoute(programId: string)
    requires programId !in RoutedIds
    ensures ProgramsPrefix <= ProgramRoute(programId)
    ensures ProgramRoute(programId)[|ProgramsPrefix|..] == programId
  {
  }

  /** The three table routes lead to training pages that exist. */
  lemma TableRoutesReachTrainingPages(programId: string)
    requires programId in RoutedIds
    ensures exists key :: key in TrainingProgramPage.TableKeys && ProgramRoute(programId) == "/training/" + key
  {
    if programId == "beginners-course" {
      assert ProgramRoute(programId) == "/training/" + "beginner";
    } else if programId == "advanced-course" {
      assert ProgramRoute(programId) == "/training/" + "advanced";
    } else {
      assert ProgramRoute(programId) == "/training/" + "intermediate";
    }
  }

  /** `Math.round(x)`: the nearest integer, halves rounded up. */
  function Round(x: real): (n: int)
    ensures x - 0.5 < n as real <= x + 0.5
  {
    (x + 0.5).Floor
  }

  /** `Math.round(price * 100)`: rupees to paise. */
  function PriceInPaise(price: real): (paise: int)
    ensures price * 100.0 - 0.5 < paise as real <= price * 100.0 + 0.5
  {
    Round(price * 100.0)
  }

  /** A whole-rupee price converts to exactly a hundred times as many paise. */
  lemma WholeRupees(n: int)
    ensures PriceInPaise(n as real) == n * 100
  {
    var x := n as real * 100.0;
    assert x == (n * 100) as real;
  }

  /** The props a card receives; `features` may be left out. */
  datatype CardProps = CardProps(id: string, title: string, description: string, price: real,
                                 features: Option<seq<string>>)

  function Features(p: CardProps): (f: seq<string>)
    ensures p.features.None? ==> f == []
    ensures p.features.Some? ==> f == p.features.value
  {
    p.features.GetOr([])
  }

  /** The props the card forwards to its checkout button. */
  function CheckoutProps(p: CardProps): (props: CheckoutButton.Props)
    ensures props.programId == p.id && props.amount == PriceInPaise(p.price)
    ensures props.name == p.title && props.description == Some(p.description)
  {
    CheckoutButton.Props(p.id, PriceInPaise(p.price), p.title, Some(p.description))
  }

  /** A card for a program of the detail page's table starts the same checkout as that page. */
  lemma CardAgreesWithDetailPage(q: ProgramDetail.Program)
    ensures CheckoutProps(CardProps(q.id, q.title, q.description, q.price as real, None))
            == ProgramDetail.CheckoutProps(q)
  {
    WholeRupees(q.price);
  }
}

=== FILE: ProgramDetail.dfy ===
/**
 * The program detail page (src/pages/ProgramDetail.tsx): the `programsData` lookup run by
 * the page's effect, the loading flag, and the props it hands to the checkout button, with
 * the price converted from rupees to paise.
 */
module ProgramDetail {
  import opened Wrappers
  import CheckoutButton

  /** The fields of a program that the lookup and the checkout use; prices are in rupees. */
  datatype Program = Program(id: string, title: string, description: string, price: int)

  const ProgramsData: seq<Program> := [
    Program("beginners-course", "Beginners Course",
      "Perfect for those new to BJJ. Learn the fundamentals in a structured environment.", 7999),
    Program("advanced-course", "Advanced Techniques",
      "For practitioners with at least 6 months of experience who want to refine their skills.", 9999),
    Program("private-lessons", "Private Lessons",
      "One-on-one training with our experienced instructors to accelerate your progress.", 12999)
  ]

  /** `programs.find(p => p.id === programId)`, as the index of the first match. */
  function Find(programs: seq<Program>, programId: Option<string>): (k: Option<nat>)
    ensures k.None? <==> forall j :: 0 <= j < |programs| ==> Some(programs[j].id) != programId
    ensures k.Some? ==> k.value < |programs| && Some(programs[k.value].id) == programId
    ensures k.Some? ==> forall j :: 0 <= j < k.value ==> Some(programs[j].id) != programId
  {
    if programs == [] then None
    else if Some(programs[0].id) == programId then Some(0)
    else
      match Find(programs[1..], programId)
      case None => None
      case Some(k) => Some(k + 1)
  }

  lemma ProgramIdsDistinct()
    ensures forall i, j :: 0 <= i < j < |ProgramsData| ==> ProgramsData[i].id != ProgramsData[j].id
  {
  }

  /** With distinct ids, looking up an entry's id finds that very entry. */
  lemma FindsEachProgram(i: nat)
    requires i < |ProgramsData|
    ensures Find(ProgramsData, Some(ProgramsData[i].id)) == Some(i)
  {
    ProgramIdsDistinct();
  }

  /** The props given to the checkout button for a program. */
  function CheckoutProps(p: Program): (props: CheckoutButton.Props)
    ensures props.programId == p.id && props.name == p.title
    ensures props.description == Some(p.description)
    ensures props.amount % 100 == 0 && props.amount / 100 == p.price
  {
    CheckoutButton.Props(p.id, p.price * 100, p.title, Some(p.description))
  }

  datatype View = Spinner | NotFound | Detail(program: Program, checkout: CheckoutButton.Props)

  class DetailPage {
    var program: Option<Program>
    var loading: bool

    constructor ()
      ensures program.None? && loading
    {
      program, loading := None, true;
    }

    /**
     * The effect for route parameter `programId`: a hit replaces the program, a miss keeps
     * whatever program was found before; loading ends either way.
     */
    method RunEffect(programId: Option<string>)
      modifies this`program, this`loading
      ensures !loading
      ensures Find(ProgramsData, programId).Some? ==>
        program == Some(ProgramsData[Find(ProgramsData, programId).value])
      ensures Find(ProgramsData, programId).None? ==> program == old(program)
    {
      loading := true;
      var found := Find(ProgramsData, programId);
      if found.Some? {
        program := Some(ProgramsData[found.value]);
      }
      loading := false;
    }

    function Render(): (v: View)
      reads this
      ensures v.Spinner? <==> loading
      ensures v.NotFound? <==> !loading && program.None?
      ensures v.Detail? ==> v.checkout == CheckoutProps(v.program) && program == Some(v.program)
    {
      if loading then Spinner
      else if program.None? then NotFound
      else Detail(program.value, CheckoutProps(program.value))
    }
  }

  /** A miss after a hit leaves the earlier program on screen. */
  method StaleProgramAfterMiss(page: DetailPage)
    modifies page
    ensures page.Render() == Detail(ProgramsData[0], CheckoutProps(ProgramsData[0]))
  {
    page.RunEffect(Some("beginners-course"));
    page.RunEffect(Some("no-such-program"));
  }
}

=== FILE: Server.dfy ===
/**
 * The payment backend (server/server.js): the CORS origin allowlist, the one-shot
 * initialisation of the Stripe handle from the environment, the `/ping` readiness probe,
 * the `/create-payment-intent` handler and the fallback error middleware.
 *
 * The Stripe SDK is not modelled: `stripe.paymentIntents.create` is represented by the
 * parameters it is called with (`IntentParams`) and by the outcome it produces
 * (`ProviderOutcome`), which the caller supplies. Every handler returns the provider call it
 * issued, if any, together with the HTTP response it sends.
 */
module Server {
  import opened Wrappers
  import opened Js

  // ---------------------------------------------------------------- CORS

  const AllowedOrigins: seq<string> := [
    "http://localhost:5173",
    "http://localhost:5174",
    "http://localhost:5175",
    "http://localhost:5176",
    "https://bjj-himalayan-bjj.vercel.app",
    "https://himalayan-bjj.vercel.app",
    "https://himalayan-bjj.com"
  ]

  const CorsRejection := "The CORS policy for this site does not allow access from the specified Origin."

  datatype CorsDecision = Allow | Reject(message: string)

  /** The `origin` callback given to the cors middleware. */
  function CorsOrigin(origin: Option<string>): (d: CorsDecision)
    ensures origin.None? || origin.value == "" ==> d == Allow
    ensures origin.Some? && origin.value != "" ==>
      (d == Allow <==> origin.value in AllowedOrigins)
    ensures d.Reject? ==> d.message == CorsRejection
  {
    if origin.None? || origin.value == "" then Allow
    else if origin.value !in AllowedOrigins then Reject(CorsRejection)
    else Allow
  }

  // ---------------------------------------------------------------- responses

  /** The error record a thrown error carries (`message`, `type`, `code`), each possibly absent. */
  datatype ErrorInfo = ErrorInfo(message: Option<string>, errorType: Option<string>, code: Option<string>)

  /** The JSON bodies the server sends. An absent `Option` field is omitted by `res.json`. */
  datatype Body =
    | MissingAmount(error: string)
    | NotInitialized(error: string, code: string)
    | ClientSecret(clientSecret: string)
    | ErrorObject(message: Option<string>, errorType: Option<string>, code: string)
    | PingStatus(pingMessage: string, timestamp: string, nodeEnv: string,
                 stripeKeyAvailable: bool, stripeInitialized: bool)

  datatype Response = Response(status: nat, body: Body)

  /** The arguments of `stripe.paymentIntents.create`. */
  datatype IntentParams = IntentParams(amount: Value, currency: string,
                                       automaticPaymentMethods: bool, metadataProgramId: Value)

  /** What `stripe.paymentIntents.create` does: resolve to an intent or throw. */
  datatype ProviderOutcome = Created(clientSecret: string) | Failed(error: ErrorInfo)

  /** The provider call a handler made (`None`: none) and the response it sent. */
  datatype Outcome = Outcome(providerCall: Option<IntentParams>, response: Response)

  /** The fields of the request body that the handler reads. */
  datatype IntentRequest = IntentRequest(amount: Value, programId: Value)

  const MissingAmountMessage := "Missing amount parameter"
  const NotInitializedMessage := "Stripe is not initialized. Check server configuration."
  const NotInitializedCode := "stripe_not_initialized"
  const DefaultErrorMessage := "Internal server error"
  const DefaultErrorCode := "500"

  /** `err.code || '500'` */
  function CodeOrDefault(code: Option<string>): (c: string)
    ensures c != ""
    ensures code.Some? && code.value != "" ==> c == code.value
    ensures code.None? || code.value == "" ==> c == DefaultErrorCode
  {
    Or(code, DefaultErrorCode)
  }

  /** The error-handling middleware registered last: every error reaching it becomes a 500. */
  function ErrorMiddleware(err: ErrorInfo): (r: Response)
    ensures r.status == 500 && r.body.ErrorObject?
    ensures r.body.message == Some(Or(err.message, DefaultErrorMessage))
    ensures r.body.errorType.None? && r.body.code == CodeOrDefault(err.code)
  {
    Response(500, ErrorObject(Some(Or(err.message, DefaultErrorMessage)), None, CodeOrDefault(err.code)))
  }

  /**
   * A request from an origin outside the allowlist: the cors middleware passes the callback's
   * error to the error middleware, so the client receives a 500 carrying the policy message.
   */
  lemma RejectedOriginResponse(origin: string)
    requires origin != "" && origin !in AllowedOrigins
    ensures CorsOrigin(Some(origin)) == Reject(CorsRejection)
    ensures ErrorMiddleware(ErrorInfo(Some(CorsOrigin(Some(origin)).message), None, None))
            == Response(500, ErrorObject(Some(CorsRejection), None, DefaultErrorCode))
  {
  }

  // ---------------------------------------------------------------- the server

  /** The process environment the server reads. */
  datatype Env = Env(stripeSecretKey: Option<string>, nodeEnv: Option<string>)

  /** An initialised Stripe client, known only by the key it was built with. */
  datatype StripeHandle = StripeHandle(apiKey: string)

  class PaymentServer {
    const env: Env
    /** The module-level `stripe` handle: assigned at most once, at start-up. */
    const stripe: Option<StripeHandle>

    /** `STRIPE_SECRET_KEY` is set to a non-empty string. */
    predicate KeyAvailable() {
      env.stripeSecretKey.Some? && env.stripeSecretKey.value != ""
    }

    /** The handle exists only if it was built from the configured key. */
    predicate Valid() {
      stripe.Some? ==> KeyAvailable() && stripe.value.apiKey == env.stripeSecretKey.value
    }

    /**
     * Start-up: the handle is built only when the key is present; `sdkThrows` says whether the
     * `Stripe(key)` constructor throws, which the surrounding `try` swallows.
     */
    constructor (env: Env, sdkThrows: bool)
      ensures this.env == env && Valid()
      ensures stripe.Some? <==> KeyAvailable() && !sdkThrows
    {
      this.env := env;
      if env.stripeSecretKey.None? || env.stripeSecretKey.value == "" {
        stripe := None;
      } else if sdkThrows {
        stripe := None;
      } else {
        stripe := Some(StripeHandle(env.stripeSecretKey.value));
      }
    }

    /** `GET /ping`: reports readiness without calling the provider. */
    function Ping(timestamp: string): (r: Outcome)
      ensures r.providerCall.None? && r.response.status == 200 && r.response.body.PingStatus?
      ensures r.response.body.stripeKeyAvailable == KeyAvailable()
      ensures r.response.body.stripeInitialized == stripe.Some?
      ensures r.response.body.nodeEnv == Or(env.nodeEnv, "not set")
      ensures r.response.body.timestamp == timestamp
    {
      Outcome(None, Response(200, PingStatus("Server is running!", timestamp,
        Or(env.nodeEnv, "not set"), KeyAvailable(), stripe.Some?)))
    }

    /**
     * `POST /create-payment-intent`. `provider` is what the Stripe call would produce; it is
     * consulted only if the handler gets as far as making the call.
     */
    function CreatePaymentIntent(req: IntentRequest, provider: ProviderOutcome): (r: Outcome)
      // exactly one provider call, and only for a truthy amount on an initialised server
      ensures r.providerCall.Some? <==> Truthy(req.amount) && stripe.Some?
      ensures r.providerCall.Some? ==>
        r.providerCall.value == IntentParams(req.amount, "inr", true, req.programId)
      // the amount is checked first
      ensures !Truthy(req.amount) <==> r.response.status == 400
      ensures !Truthy(req.amount) ==> r.response.body == MissingAmount(MissingAmountMessage)
      ensures Truthy(req.amount) && stripe.None? ==>
        r.response == Response(500, NotInitialized(NotInitializedMessage, NotInitializedCode))
      // success: the body is exactly the client secret
      ensures r.response.status == 200 <==> r.providerCall.Some? && provider.Created?
      ensures r.response.status == 200 ==> r.response.body == ClientSecret(provider.clientSecret)
      // provider error: message and type unchanged, code defaulted
      ensures r.providerCall.Some? && provider.Failed? ==>
        r.response == Response(500, ErrorObject(provider.error.message, provider.error.errorType,
                                                CodeOrDefault(provider.error.code)))
    {
      if !Truthy(req.amount) then
        Outcome(None, Response(400, MissingAmount(MissingAmountMessage)))
      else if stripe.None? then
        Outcome(None, Response(500, NotInitialized(NotInitializedMessage, NotInitializedCode)))
      else
        var params := IntentParams(req.amount, "inr", true, req.programId);
        match provider
        case Created(secret) => Outcome(Some(params), Response(200, ClientSecret(secret)))
        case Failed(e) =>
          Outcome(Some(params), Response(500, ErrorObject(e.message, e.errorType, CodeOrDefault(e.code))))
    }
  }

  /** A `/ping` that reports an initialised client implies that the key is configured. */
  lemma PingInitializedImpliesKey(s: PaymentServer, timestamp: string)
    requires s.Valid()
    ensures s.Ping(timestamp).response.body.stripeInitialized ==>
            s.Ping(timestamp).response.body.stripeKeyAvailable
  {
  }

  /** Nothing about the amount is checked beyond truthiness: a negative amount reaches Stripe. */
  lemma NegativeAmountReachesProvider(s: PaymentServer, n: int, programId: Value, provider: ProviderOutcome)
    requires n < 0 && s.stripe.Some?
    ensures s.CreatePaymentIntent(IntentRequest(Num(n), programId), provider).providerCall.Some?
  {
  }

  /** The handler's result depends on the provider only when a call is made. */
  lemma ProviderIrrelevantWithoutCall(s: PaymentServer, req: IntentRequest, p1: ProviderOutcome, p2: ProviderOutcome)
    requires s.CreatePaymentIntent(req, p1).providerCall.None?
    ensures s.CreatePaymentIntent(req, p1) == s.CreatePaymentIntent(req, p2)
  {
  }
}

=== FILE: StripeCheckoutForm.dfy ===
/**
 * The embedded payment form (src/components/payments/StripeCheckoutForm.tsx): the
 * not-loaded guard, the processing flag around `stripe.confirmPayment`, and the error
 * messages. `handleSubmit` is split at its `await` into `Submit` and `Complete`; what
 * `confirmPayment` does is the parameter of `Complete`.
 */
module StripeCheckoutForm {
  import opened Wrappers
  import Js

  const NotLoadedMessage := "Stripe hasn't loaded yet. Please try again."
  const UnexpectedErrorMessage := "An unexpected error occurred."
  const PaymentFailedMessage := "Failed to process payment. Please try again."

  /** The `confirmParams` passed to `stripe.confirmPayment`. */
  datatype ConfirmRequest = ConfirmRequest(returnUrl: string)

  /** How `confirmPayment` settled: redirected away, resolved with an error, or threw. */
  datatype ConfirmOutcome = Redirected | ReturnedError(message: Option<string>) | Threw

  /** `window.location.origin + '/payment-success'` */
  function ReturnUrl(origin: string): (url: string)
    ensures origin <= url && url[|origin|..] == "/payment-success"
  {
    origin + "/payment-success"
  }

  /** The message shown for a failed confirmation; `None` when the outcome is not a failure. */
  function ConfirmErrorMessage(outcome: ConfirmOutcome): (m: Option<string>)
    ensures m.None? <==> outcome.Redirected?
    ensures m.Some? ==> m.value != ""
    ensures outcome.ReturnedError? && outcome.message.Some? && outcome.message.value != "" ==>
      m == outcome.message
    ensures outcome.ReturnedError? && (outcome.message.None? || outcome.message.value == "") ==>
      m == Some(UnexpectedErrorMessage)
    ensures outcome.Threw? ==> m == Some(PaymentFailedMessage)
  {
    match outcome
    case Redirected => None
    case ReturnedError(message) => Some(Js.Or(message, UnexpectedErrorMessage))
    case Threw => Some(PaymentFailedMessage)
  }

  class PaymentForm {
    var isProcessing: bool
    var errorMessage: string

    constructor ()
      ensures !isProcessing && errorMessage == ""
    {
      isProcessing, errorMessage := false, "";
    }

    /**
     * `handleSubmit` up to the confirmation call. Without Stripe or Elements only the
     * not-loaded message is set; otherwise processing starts and the confirmation is requested.
     */
    method Submit(stripeLoaded: bool, elementsLoaded: bool, origin: string) returns (confirm: Option<ConfirmRequest>)
      modifies this`isProcessing, this`errorMessage
      ensures !(stripeLoaded && elementsLoaded) ==>
        confirm.None? && errorMessage == NotLoadedMessage && isProcessing == old(isProcessing)
      ensures stripeLoaded && elementsLoaded ==>
        confirm == Some(ConfirmRequest(ReturnUrl(origin))) && isProcessing && errorMessage == ""
    {
      if !stripeLoaded || !elementsLoaded {
        errorMessage := NotLoadedMessage;
        return None;
      }
      isProcessing := true;
      errorMessage := "";
      confirm := Some(ConfirmRequest(ReturnUrl(origin)));
    }

    /** The rest of `handleSubmit`: record a failure's message; processing stops in every case. */
    method Complete(outcome: ConfirmOutcome)
      modifies this`isProcessing, this`errorMessage
      ensures !isProcessing
      ensures errorMessage == ConfirmErrorMessage(outcome).GetOr(old(errorMessage))
    {
      match outcome {
        case Redirected =>
        case ReturnedError(message) =>
          errorMessage := Js.Or(message, UnexpectedErrorMessage);
        case Threw =>
          errorMessage := PaymentFailedMessage;
      }
      isProcessing := false;
    }

    /** The submit button is disabled exactly while Stripe is missing or a payment is processing. */
    function SubmitDisabled(stripeLoaded: bool): (disabled: bool)
      reads this
      ensures disabled <==> !stripeLoaded || isProcessing
      ensures isProcessing ==> disabled
      ensures !disabled ==> stripeLoaded
    {
      !stripeLoaded || isProcessing
    }
  }

  /** After a failed confirmation the form can be submitted again (if Stripe is loaded). */
  method RetryAfterFailure(f: PaymentForm, origin: string, outcome: ConfirmOutcome)
    modifies f
    ensures !f.SubmitDisabled(true)
    ensures outcome.Threw? ==> f.errorMessage == PaymentFailedMessage
  {
    var c := f.Submit(true, true, origin);
    f.Complete(outcome);
  }
}

=== FILE: Text.dfy ===
/**
 * Character classes and string operations shared by the form formatters and the URL
 * builders: the `\d` and `\s` classes of JavaScript regular expressions, filtering,
 * `substring(0, n)`, `trim()`, and decimal rendering and parsing of naturals.
 */
module Text {
  import opened Wrappers

  /** `\d`: the ASCII digits only. */
  predicate IsDigit(c: char) {
    '0' <= c <= '9'
  }

  /** `\s`, which is also the set `String.prototype.trim` removes (WhiteSpace and LineTerminator). */
  predicate IsWhitespace(c: char) {
    c == ' ' || c == '\t' || c == '\n' || c == '\r' || c == '\U{0B}' || c == '\U{0C}'
    || c == '\U{A0}' || c == '\U{1680}' || ('\U{2000}' <= c <= '\U{200A}')
    || c == '\U{2028}' || c == '\U{2029}' || c == '\U{202F}' || c == '\U{205F}'
    || c == '\U{3000}' || c == '\U{FEFF}'
  }

  lemma DigitNotWhitespace(c: char)
    requires IsDigit(c)
    ensures !IsWhitespace(c)
  {
  }

  predicate NotWhitespace(c: char) {
    !IsWhitespace(c)
  }

  predicate AllDigits(s: string) {
    forall i :: 0 <= i < |s| ==> IsDigit(s[i])
  }

  predicate NoWhitespace(s: string) {
    forall i :: 0 <= i < |s| ==> !IsWhitespace(s[i])
  }

  /** The characters of `s` that `keep` accepts, in order: `s.replace(/[^keep]/g, '')`. */
  function Filter(keep: char -> bool, s: string): (r: string)
    ensures |r| <= |s|
    ensures forall i :: 0 <= i < |r| ==> keep(r[i])
  {
    if s == [] then [] else (if keep(s[0]) then [s[0]] else []) + Filter(keep, s[1..])
  }

  /** `s.replace(/\s/g, '')` */
  function RemoveWhitespace(s: string): (r: string)
    ensures NoWhitespace(r) && |r| <= |s|
  {
    Filter(NotWhitespace, s)
  }

  /** `s.replace(/\D/g, '')` */
  function KeepDigits(s: string): (r: string)
    ensures AllDigits(r) && |r| <= |s|
  {
    Filter(IsDigit, s)
  }

  lemma {:induction false} FilterAppend(keep: char -> bool, a: string, b: string)
    ensures Filter(keep, a + b) == Filter(keep, a) + Filter(keep, b)
  {
    if a == [] {
      assert a + b == b;
    } else {
      assert (a + b)[1..] == a[1..] + b;
      FilterAppend(keep, a[1..], b);
    }
  }

  /** A string all of whose characters are kept passes through the filter unchanged. */
  lemma {:induction false} FilterKeepsAll(keep: char -> bool, s: string)
    requires forall i :: 0 <= i < |s| ==> keep(s[i])
    ensures Filter(keep, s) == s
  {
    if s != [] {
      FilterKeepsAll(keep, s[1..]);
    }
  }

  lemma FilterIdempotent(keep: char -> bool, s: string)
    ensures Filter(keep, Filter(keep, s)) == Filter(keep, s)
  {
    FilterKeepsAll(keep, Filter(keep, s));
  }

  /** Filtering a prefix gives a prefix of the filtered whole. */
  lemma {:induction false} FilterPrefix(keep: char -> bool, s: string, n: nat)
    requires n <= |s|
    ensures Filter(keep, s[..n]) <= Filter(keep, s)
  {
    if n > 0 {
      assert s[..n][1..] == s[1..][..n - 1];
      FilterPrefix(keep, s[1..], n - 1);
    }
  }

  /** `s.substring(0, n)`: the first `n` characters, or all of `s` when it is shorter. */
  function Take(s: string, n: nat): (r: string)
    ensures r <= s
    ensures |r| == if |s| <= n then |s| else n
  {
    if |s| <= n then s else s[..n]
  }

  function TrimStart(s: string): (r: string)
    ensures |r| <= |s| && r == s[|s| - |r|..]
    ensures r != [] ==> !IsWhitespace(r[0])
  {
    if s != [] && IsWhitespace(s[0]) then TrimStart(s[1..]) else s
  }

  function TrimEnd(s: string): (r: string)
    ensures r <= s
    ensures r != [] ==> !IsWhitespace(r[|r| - 1])
  {
    if s != [] && IsWhitespace(s[|s| - 1]) then TrimEnd(s[..|s| - 1]) else s
  }

  /** `s.trim()` */
  function Trim(s: string): string {
    TrimStart(TrimEnd(s))
  }

  /** A string without whitespace at either end is unchanged by trimming, also after one trailing space is appended. */
  lemma TrimUnpadded(g: string)
    requires g != [] ==> !IsWhitespace(g[0]) && !IsWhitespace(g[|g| - 1])
    ensures Trim(g) == g && Trim(g + " ") == g
  {
    assert TrimEnd(g) == g;
    var p := g + " ";
    assert p[..|p| - 1] == g;
    assert TrimEnd(p) == g;
  }

  /** A string that starts and ends with a digit, with at most one space appended, trims to itself. */
  lemma TrimDigitEnds(s: string, g: string, pad: string)
    requires s == g + pad && (pad == "" || pad == " ")
    requires g != [] ==> IsDigit(g[0]) && IsDigit(g[|g| - 1])
    ensures Trim(s) == g
  {
    if g != [] {
      DigitNotWhitespace(g[0]);
      DigitNotWhitespace(g[|g| - 1]);
    }
    TrimUnpadded(g);
    if pad == "" {
      assert g + pad == g;
    }
  }

  /** Trimming removes whitespace only, so the non-whitespace characters are untouched. */
  lemma {:induction false} TrimKeepsContent(s: string)
    ensures RemoveWhitespace(Trim(s)) == RemoveWhitespace(s)
  {
    TrimEndKeepsContent(s);
    TrimStartKeepsContent(TrimEnd(s));
  }

  lemma {:induction false} TrimStartKeepsContent(s: string)
    ensures RemoveWhitespace(TrimStart(s)) == RemoveWhitespace(s)
  {
    if s != [] && IsWhitespace(s[0]) {
      TrimStartKeepsContent(s[1..]);
    }
  }

  lemma {:induction false} TrimEndKeepsContent(s: string)
    ensures RemoveWhitespace(TrimEnd(s)) == RemoveWhitespace(s)
  {
    if s != [] && IsWhitespace(s[|s| - 1]) {
      var init := s[..|s| - 1];
      assert s == init + [s[|s| - 1]];
      FilterAppend(NotWhitespace, init, [s[|s| - 1]]);
      TrimEndKeepsContent(init);
    }
  }

  /** `s.lastIndexOf(c)`, with `None` for -1. */
  function LastIndexOf(s: string, c: char): (r: Option<nat>)
    ensures r.None? <==> c !in s
    ensures r.Some? ==> r.value < |s| && s[r.value] == c
                        && forall j :: r.value < j < |s| ==> s[j] != c
  {
    if s == [] then None
    else if s[|s| - 1] == c then Some(|s| - 1)
    else LastIndexOf(s[..|s| - 1], c)
  }

  /** Splitting at the last `c` of `a + [c] + b`, when `b` has no `c`, gives back `a` and `b`. */
  lemma {:induction false} LastIndexOfSplit(a: string, c: char, b: string)
    requires c !in b
    ensures LastIndexOf(a + [c] + b, c) == Some(|a|)
    ensures (a + [c] + b)[..|a|] == a && (a + [c] + b)[|a| + 1..] == b
  {
    var s := a + [c] + b;
    if b != [] {
      var init := b[..|b| - 1];
      assert s[..|s| - 1] == a + [c] + init;
      assert s[|s| - 1] == b[|b| - 1];
      LastIndexOfSplit(a, c, init);
    }
  }

  /** The digit character for `d`. */
  function DigitChar(d: nat): (c: char)
    requires d < 10
    ensures IsDigit(c)
  {
    ('0' as int + d) as char
  }

  function DigitValue(c: char): (d: nat)
    requires IsDigit(c)
    ensures d < 10 && DigitChar(d) == c
  {
    c as int - '0' as int
  }

  /** `String(n)` for a natural number: its decimal digits, most significant first. */
  function NatToString(n: nat): (r: string)
    ensures |r| > 0 && AllDigits(r)
  {
    if n < 10 then [DigitChar(n)] else NatToString(n / 10) + [DigitChar(n % 10)]
  }

  /** The number a string of decimal digits denotes. */
  function DigitsValue(s: string): nat
    requires AllDigits(s)
  {
    if s == [] then 0 else DigitsValue(s[..|s| - 1]) * 10 + DigitValue(s[|s| - 1])
  }

  /** The longest run of digits at the start of `s`. */
  function DigitPrefix(s: string): (r: string)
    ensures r <= s && AllDigits(r)
    ensures |r| < |s| ==> !IsDigit(s[|r|])
  {
    if s != [] && IsDigit(s[0]) then [s[0]] + DigitPrefix(s[1..]) else []
  }

  lemma {:induction false} DigitPrefixAll(s: string)
    requires AllDigits(s)
    ensures DigitPrefix(s) == s
  {
    if s != [] {
      DigitPrefixAll(s[1..]);
    }
  }

  /** The digits run of `s` stops at the first character that is not a digit. */
  lemma {:induction false} DigitPrefixStops(s: string, rest: string)
    requires AllDigits(s)
    requires rest == [] || !IsDigit(rest[0])
    ensures DigitPrefix(s + rest) == s
  {
    if s != [] {
      assert (s + rest)[1..] == s[1..] + rest;
      DigitPrefixStops(s[1..], rest);
    }
  }

  /** Reading back the decimal rendering of `n` gives `n`. */
  lemma {:induction false} NatToStringRoundTrip(n: nat)
    ensures DigitsValue(NatToString(n)) == n
  {
    if n >= 10 {
      var s := NatToString(n);
      assert s[..|s| - 1] == NatToString(n / 10);
      NatToStringRoundTrip(n / 10);
    }
  }

  lemma NatToStringInjective(a: nat, b: nat)
    ensures NatToString(a) == NatToString(b) ==> a == b
  {
    NatToStringRoundTrip(a);
    NatToStringRoundTrip(b);
  }
}

=== FILE: TrainingProgramPage.dfy ===
/**
 * The training-program page with embedded card payment
 * (src/pages/TrainingProgramPage.tsx): the program table, the buy flow that requests a
 * payment intent from the backend, the three forms of error message, and what is rendered.
 *
 * `handleBuyNowClick` is split at its `await`: `BeginBuy` runs up to the request and returns
 * the request it sends, `CompleteBuy` runs the rest given what the request produced.
 */
module TrainingProgramPage {
  import opened Wrappers
  import opened Text
  import Js

  datatype Program = Program(id: string, name: string, price: nat, level: string, variant: string)

  /** `trainingPrograms`; prices are in paise. */
  function TableEntry(key: string): (p: Option<Program>)
    ensures p.Some? <==> key in TableKeys
    ensures p.Some? ==> p.value.id == key && p.value.price > 0
  {
    match key
    case "beginner" => Some(Program("beginner", "Beginner BJJ Program", 1000000, "Beginner", "primary"))
    case "intermediate" => Some(Program("intermediate", "Intermediate BJJ Program", 2000000, "Intermediate", "secondary"))
    case "advanced" => Some(Program("advanced", "Jiu Jitsu Instructor Program", 3000000, "Advanced", "accent"))
    case _ => None
  }

  const TableKeys: set<string> := {"beginner", "intermediate", "advanced"}

  /** `programId ? trainingPrograms[programId] : null` for the route parameter. */
  function ProgramFor(programId: Option<string>): (p: Option<Program>)
    ensures p.Some? <==> programId.Some? && programId.value in TableKeys
    ensures p.Some? ==> p.value.id == programId.value
  {
    if programId.None? || programId.value == "" then None else TableEntry(programId.value)
  }

  /** Every table price is a whole number of rupees, shown as `price / 100`. */
  lemma TablePricesInPaise(key: string)
    requires key in TableKeys
    ensures TableEntry(key).Some? && TableEntry(key).value.price > 0
    ensures TableEntry(key).value.price % 100 == 0
    ensures TableEntry(key).value.price / 100 in {10000, 20000, 30000}
  {
  }

  // ---------------------------------------------------------------- the request

  /** The body posted to `/create-payment-intent`. */
  datatype IntentRequest = IntentRequest(amount: nat, programId: string)

  /** The request the buy button sends for a program. */
  function RequestFor(p: Program): (r: IntentRequest)
    ensures r.amount == p.price && r.programId == p.id
  {
    IntentRequest(p.price, p.id)
  }

  /** The request for a table program always passes the backend's amount check. */
  lemma TableRequestsHaveAmount(key: string)
    requires key in TableKeys
    ensures Js.Truthy(Js.Num(RequestFor(TableEntry(key).value).amount))
  {
  }

  /** Why `axios.post` rejected. */
  datatype RequestFailure =
    | HttpError(status: nat, dataJson: string)   // a response was received; `dataJson` is `JSON.stringify(data)`
    | NoResponse                                  // the request was sent, no response came back
    | SetupError(message: string)                 // anything else, with its `message`

  datatype RequestOutcome = Resolved(clientSecret: string) | Rejected(failure: RequestFailure)

  const NoResponseMessage := "No response from server." + " Please check if the backend is running."

  /** The message shown for a failed request. */
  function FailureMessage(f: RequestFailure): (m: string)
    ensures f.HttpError? ==> |f.dataJson| <= |m| && m[|m| - |f.dataJson|..] == f.dataJson
    ensures f.SetupError? ==> |f.message| <= |m| && m[|m| - |f.message|..] == f.message
    ensures f.NoResponse? ==> m == NoResponseMessage
  {
    match f
    case HttpError(status, data) => "Server error: " + NatToString(status) + " - " + data
    case NoResponse => NoResponseMessage
    case SetupError(message) => "Error: " + message
  }

  /**
   * Each message reads back its failure: a server error's message is `Server error: `, the
   * status in decimal, ` - ` and the response data; any other error's is `Error: ` and its own
   * message.
   */
  lemma FailureMessageReadBack(f: RequestFailure)
    ensures f.HttpError? ==>
      var m := FailureMessage(f);
      var digits := DigitPrefix(m[14..]);
      m[..14] == "Server error: " && digits != [] && DigitsValue(digits) == f.status
      && m[14 + |digits|..] == " - " + f.dataJson
    ensures f.SetupError? ==>
      var m := FailureMessage(f);
      |m| >= 7 && m[..7] == "Error: " && m[7..] == f.message
  {
    if f.HttpError? {
      var m := FailureMessage(f);
      var s := NatToString(f.status);
      var rest := " - " + f.dataJson;
      assert m == "Server error: " + (s + rest);
      assert m[14..] == s + rest;
      DigitPrefixStops(s, rest);
      NatToStringRoundTrip(f.status);
    }
  }

  datatype FailureKind = ServerErrorKind | NoResponseKind | OtherKind

  function KindOf(f: RequestFailure): FailureKind
  {
    match f
    case HttpError(_, _) => ServerErrorKind
    case NoResponse => NoResponseKind
    case SetupError(_) => OtherKind
  }

  /** Reads the kind of failure back from a displayed message by its first letter. */
  function KindOfMessage(message: string): Option<FailureKind>
  {
    if message == [] then None
    else if message[0] == 'S' then Some(ServerErrorKind)
    else if message[0] == 'N' then Some(NoResponseKind)
    else if message[0] == 'E' then Some(OtherKind)
    else None
  }

  /** The three message forms are told apart by the message alone. */
  lemma FailureMessageClassifies(f: RequestFailure)
    ensures KindOfMessage(FailureMessage(f)) == Some(KindOf(f))
  {
    match f {
      case HttpError(status, data) =>
        assert FailureMessage(f)[0] == "Server error: "[0];
      case NoResponse =>
      case SetupError(message) =>
        assert FailureMessage(f)[0] == "Error: "[0];
    }
  }

  // ---------------------------------------------------------------- the page

  datatype BuyButton = Hidden | Shown(disabled: bool, caption: string)

  datatype View =
    | NotFound
    | Details(program: Program, error: Option<string>, buyButton: BuyButton, paymentForm: Option<string>)

  class ProgramPage {
    const program: Option<Program>
    var showCheckout: bool
    var clientSecret: string
    var isLoading: bool
    var errorMessage: Option<string>

    constructor (programId: Option<string>)
      ensures program == ProgramFor(programId)
      ensures !showCheckout && clientSecret == "" && !isLoading && errorMessage.None?
    {
      program := ProgramFor(programId);
      showCheckout, clientSecret, isLoading, errorMessage := false, "", false, None;
    }

    /** `handleBuyNowClick` up to the request: nothing happens without a program. */
    method BeginBuy() returns (request: Option<IntentRequest>)
      modifies this`isLoading, this`errorMessage
      ensures program.None? ==> request.None? && isLoading == old(isLoading) && errorMessage == old(errorMessage)
      ensures program.Some? ==> request == Some(RequestFor(program.value)) && isLoading && errorMessage.None?
    {
      if program.None? {
        return None;
      }
      isLoading := true;
      errorMessage := None;
      request := Some(RequestFor(program.value));
    }

    /** The rest of `handleBuyNowClick`, once the request has settled. */
    method CompleteBuy(outcome: RequestOutcome)
      modifies this`showCheckout, this`clientSecret, this`isLoading, this`errorMessage
      ensures !isLoading
      ensures outcome.Resolved? ==>
        showCheckout && clientSecret == outcome.clientSecret && errorMessage == old(errorMessage)
      ensures outcome.Rejected? ==>
        showCheckout == old(showCheckout) && clientSecret == old(clientSecret)
        && errorMessage == Some(FailureMessage(outcome.failure))
    {
      match outcome {
        case Resolved(secret) =>
          clientSecret := secret;
          showCheckout := true;
        case Rejected(failure) =>
          errorMessage := Some(FailureMessage(failure));
      }
      isLoading := false;
    }

    /** What the page renders. */
    function Render(): (v: View)
      reads this
      ensures v.NotFound? <==> program.None?
      ensures v.Details? ==> v.program == program.value
      ensures v.Details? ==> v.error == (if errorMessage.Some? && errorMessage.value != "" then errorMessage else None)
      ensures v.Details? && v.buyButton.Shown? ==> v.buyButton.caption == (if isLoading then "Loading..." else "Buy Now")
      ensures v.Details? ==> (v.buyButton.Hidden? <==> showCheckout)
      ensures v.Details? && v.buyButton.Shown? ==> (v.buyButton.disabled <==> isLoading)
      ensures v.Details? ==> (v.paymentForm.Some? <==> showCheckout && clientSecret != "")
      ensures v.Details? && v.paymentForm.Some? ==> v.paymentForm.value == clientSecret
    {
      if program.None? then NotFound
      else
        Details(program.value,
          if errorMessage.Some? && errorMessage.value != "" then errorMessage else None,
          if showCheckout then Hidden else Shown(isLoading, if isLoading then "Loading..." else "Buy Now"),
          if showCheckout && clientSecret != "" then Some(clientSecret) else None)
    }

    /** A click reaches `handleBuyNowClick` only through a shown, enabled Buy button. */
    method ClickBuy() returns (request: Option<IntentRequest>)
      modifies this`isLoading, this`errorMessage
      ensures old(isLoading) || old(showCheckout) ==> request.None? && isLoading == old(isLoading)
      ensures !old(isLoading) && !old(showCheckout) && program.Some? ==> request == Some(RequestFor(program.value))
      ensures program.None? ==> request.None?
      ensures request.Some? ==> isLoading && errorMessage.None?
      ensures request.None? ==> isLoading == old(isLoading) && errorMessage == old(errorMessage)
    {
      if program.None? || showCheckout || isLoading {
        return None;
      }
      request := BeginBuy();
    }
  }

  /** Two clicks before the first request settles send one request. */
  method DoubleClick(page: ProgramPage) returns (first: Option<IntentRequest>, second: Option<IntentRequest>)
    modifies page
    ensures second.None?
    ensures first.Some? || second.Some? ==> page.program.Some?
  {
    first := page.ClickBuy();
    second := page.ClickBuy();
  }
}

=== FILE: Wrappers.dfy ===
/** Optional values: a JavaScript `null`/`undefined` or a present value. */
module Wrappers {

  datatype Option<+T> = None | Some(value: T) {

    /** The value when present, otherwise the default. */
    function GetOr(default: T): T {
      match this
      case Some(v) => v
      case None => default
    }
  }
}
